=== FILE: README.md ===
# mytimer core, modelled in Dafny

This project models the logic at the heart of mytimer, a personal time-tracking web
application. Users check in and out of projects, record time entries by hand or with a
running timer, tag and annotate them, and browse, filter and edit them. The model covers:

- the search pipeline over a project's entries: a date-range stage, an exact tag stage
  and two fuzzy text stages, plus the sorted list of distinct tags (`FuzzySearch`);
- the single-slot project check-in timer with its persistence in browser storage
  (`ProjectTimer`, `TimerCodec`), and the check-in button that switches projects on top
  of it (`CheckInButton`);
- the calendar timer's clock face and its start/stop/reset transitions (`CalendarTimer`);
- the check-out dialog's "Xh Ym" label, default title, submit and close (`CheckOutDialog`);
- the event details modal's duration label and minute count (`EventDetails`);
- the list view's latest-first sort, pages of ten, and its optional blocks
  (`DetailedView`), and the previous/next controls (`Pagination`);
- the manual-entry dialog's validation chain, the entry it sends and its default times
  (`ManualTimeDialog`);
- the edit form's selections, option lists, change detection and submit (`EditForm`);
- the creation and update validation schemas (`TimeTrackSchema`);
- the calendar's manual/system classification of entries (`ProjectCalendar`);
- today's entries on the dashboard, with notes cut to 300 characters (`CurrentTracks`).

Everything is a pure function over immutable values. Timestamps are whole milliseconds
since the epoch (`int`). Strings are sequences of characters. Browser storage is a
`map<string, string>`. "Now", the user's answer to a confirmation, and whether a request
to the server succeeds are all parameters. The Fuse.js matcher is a parameter of subset
type: any function that returns a sub-multiset of the collection it searches.

Shared helpers:

- `Wrappers`: the `Option` type.
- `Text`: the JavaScript string operations the components use. These are `trim`,
  `parseInt`, `toString`, `padStart`, `includes`, `split` and the default sort order.
- `Seqs`: `Array.prototype.filter` and its laws.
- `TimeTracks`: the entry records.

JavaScript's `Math.floor(a / b)` with `b > 0` is Dafny's `a / b`. JavaScript's `%` is
written out where its operand can be negative (`EventDetails.JsRem`).

Behaviour of the code worth knowing, which the model follows:

- `checkIn` has no idle guard. It replaces whatever timer is active.
- The elapsed-seconds display is not clamped at zero. A start in the future gives a
  negative count.
- The validation schema does not require `end >= start`.
- Consider a project switch whose request to save the old entry fails. The code clears
  the old timer before sending and never reaches the new check-in, so the final state is
  idle: the new project is not checked in.
- `handleStop` and `handleReset` of the calendar timer do not clear the context's tag.

## Model

| member | source | states |
|---|---|---|
| Text.Trim | components/dashboard/projects/project/CheckOutDialog.tsx:46-50 | `trim()` yields the empty string iff its input is blank, otherwise a string that neither starts nor ends with whitespace, never longer than the input |
| Text.TrimIsInfix | components/dashboard/projects/project/CheckOutDialog.tsx:46-50 | the trimmed string is a contiguous piece of the input with only whitespace cut off before and after it |
| Text.ParseIntOfDigits | components/dashboard/projects/project/CheckOutDialog.tsx:27-28 | `parseInt` reads a non-empty run of decimal digits as the number it denotes |
| Text.ParsePaddedNat | components/dashboard/projects/project/CheckOutDialog.tsx:27-28 | a number written in decimal and zero-padded to two places reads back through `parseInt` as the number itself |
| FuzzySearch.FilterWithoutCriteria | lib/utils/fuzzySearch.ts:30-83 | with no dates, an empty tag and whitespace-only searches, the pipeline returns its input list unchanged |
| FuzzySearch.DateStageBothBounds | lib/utils/fuzzySearch.ts:38-42 | with both bounds, an entry survives the date stage iff it occurs in the input and start <= endDate and end >= startDate |
| FuzzySearch.DateStageStartOnly | lib/utils/fuzzySearch.ts:43-45 | with only a start bound, an entry survives iff it occurs in the input and ends at or after the bound |
| FuzzySearch.DateStageEndOnly | lib/utils/fuzzySearch.ts:46-48 | with only an end bound, an entry survives iff it occurs in the input and starts at or before the bound |
| FuzzySearch.DateStageLaws | lib/utils/fuzzySearch.ts:33-52 | the date stage returns an order-preserving subsequence of its input and is idempotent |
| FuzzySearch.TagStageExact | lib/utils/fuzzySearch.ts:55-58 | a non-empty tag keeps exactly the entries whose tag equals it, each as many times as it occurs in the input |
| FuzzySearch.TagStageLaws | lib/utils/fuzzySearch.ts:55-58 | the tag stage returns an order-preserving subsequence of its input and is idempotent |
| FuzzySearch.FilterTimeTracks | lib/utils/fuzzySearch.ts:26-86 | the four stages in order; the result is a sub-multiset of the input and every entry in it passes the date test and the tag test, since the fuzzy stages only choose among what the exact stages let through |
| FuzzySearch.FilterIdempotentWithoutSearch | lib/utils/fuzzySearch.ts:30-59 | without text searches, filtering an already filtered list changes nothing |
| FuzzySearch.FilterOfEmpty | lib/utils/fuzzySearch.ts:26-86 | an empty list stays empty under any filters, because each fuzzy stage only returns items of its collection |
| FuzzySearch.InsertSorted | lib/utils/fuzzySearch.ts:89-93 | adding a tag to the set keeps the list strictly ascending, and its elements are the old ones plus the new tag |
| FuzzySearch.GetAvailableTags | lib/utils/fuzzySearch.ts:88-97 | the result is strictly ascending (sorted, no duplicates), and a string is in it iff it is non-empty and some entry carries it as its tag |
| FuzzySearch.SortedUnique | lib/utils/fuzzySearch.ts:97 | two strictly sorted lists with the same elements are equal, so the tag list is determined by the set of tags alone |
| ProjectTimer.Save | store/project-timer-context.tsx:46-53 | after the save effect the key is present iff a timer is active and then holds that timer's serialisation; no other key changes |
| ProjectTimer.CheckIn | store/project-timer-context.tsx:55-62 | check-in always yields the new timer started at now, replacing any active one, and storage mirrors it |
| ProjectTimer.CheckOut | store/project-timer-context.tsx:64-75 | from idle: no snapshot and no change; from active: a snapshot with the timer's project, title and start plus end = now, and the provider becomes idle with the key removed |
| ProjectTimer.IsCheckedInAfterCheckIn | store/project-timer-context.tsx:77-82 | after checking in to p, a project reports checked in iff it is p |
| ProjectTimer.NotCheckedInAfterCheckOut | store/project-timer-context.tsx:77-82 | after a check-out, and whenever idle, no project reports checked in |
| ProjectTimer.IsCheckedIn | store/project-timer-context.tsx:77-82 | a project is checked in iff the active timer is for it; IsCheckedInAfterCheckIn and NotCheckedInAfterCheckOut state what check-in and check-out do to it |
| ProjectTimer.Mount | store/project-timer-context.tsx:32-53 | after mounting, storage agrees with the state and no key other than the provider's changed |
| ProjectTimer.Load | store/project-timer-context.tsx:33-44 | a non-empty stored text that parses is adopted with storage untouched, and an adopted timer is always what the stored text parses to; otherwise storage either stays as it was or loses only the provider key, and then the provider is idle; other keys never change (LoadAbsent, LoadCorrupt and ReloadAfterSave give the cases) |
| ProjectTimer.LoadAbsent | store/project-timer-context.tsx:33-35 | with no stored value, or an empty one, the provider starts idle and storage is untouched |
| ProjectTimer.LoadCorrupt | store/project-timer-context.tsx:36-42 | an unparseable stored value is removed and the provider starts idle; other keys are untouched |
| ProjectTimer.ReloadAfterSave | store/project-timer-context.tsx:33-53 | loading what the save effect wrote restores the identical timer (or idleness), and mounting on it reproduces the same state and storage |
| ProjectTimer.CheckInSurvivesReload | store/project-timer-context.tsx:47-62 | the timer a check-in persisted is the one a reload restores |
| TimerCodec.DecodeEncode | store/project-timer-context.tsx:37-49 | parsing the serialisation of a timer gives back that timer |
| TimerCodec.Encode | store/project-timer-context.tsx:49 | the stored text of a timer; DecodeEncode reads it back unchanged and TruncatedTextIsCorrupt shows that no proper prefix of it parses |
| TimerCodec.Decode | store/project-timer-context.tsx:37 | the literal `null`, and only it, reads as "no timer"; any other text yields a timer or counts as unparseable |
| TimerCodec.UnescapeEscape | store/project-timer-context.tsx:49 | a string body written with quotes and backslashes escaped reads back as the original text, stopping at the closing quote |
| TimerCodec.TruncatedTextIsCorrupt | store/project-timer-context.tsx:36-42 | every proper prefix of a serialised timer fails to parse, so a cut-off stored value is discarded rather than adopted |
| CheckInButton.HandleCheckOutInternal | components/dashboard/projects/project/ProjectCheckInButton.tsx:80-102 | with no timer nothing is sent; otherwise the timer is cleared first and the entry sent has the given title, the snapshot's start, end and project, system tracking, and notes absent iff empty and otherwise the given notes; failure is reported |
| CheckInButton.HandleCheckIn | components/dashboard/projects/project/ProjectCheckInButton.tsx:52-78 | without another project's timer it checks in directly; a declined switch changes nothing and sends nothing; a confirmed switch sends "Work on <old title>" for the old timer and checks in only if that send succeeded, leaving the provider idle otherwise |
| CheckInButton.HandleCheckOutConfirm | components/dashboard/projects/project/ProjectCheckInButton.tsx:113-124 | after confirming, no timer is active; an entry is sent iff a timer was active, with the dialog's title and end = now; a failure is caught and reported |
| CheckInButton.ElapsedSeconds | components/dashboard/projects/project/ProjectCheckInButton.tsx:31-43 | 0 unless this project is checked in; otherwise the floor of the elapsed milliseconds over 1000 |
| CheckInButton.ElapsedNonNegative | components/dashboard/projects/project/ProjectCheckInButton.tsx:37-43 | the elapsed count is never negative once the clock has reached the start |
| CheckInButton.FailedSwitchLeavesIdle | components/dashboard/projects/project/ProjectCheckInButton.tsx:59-72 | a confirmed switch whose send fails leaves no timer, and a reload of storage finds none either |
| CalendarTimer.Decomposition | components/dashboard/projects/project/CalendarTimer.tsx:30-33 | hours*3600 + minutes*60 + seconds equals the count, with minutes and seconds below 60 |
| CalendarTimer.FormatTime | components/dashboard/projects/project/CalendarTimer.tsx:30-36 | the "HH:MM:SS" clock face of a second count; FormatTimeReadsBack and FormatTimeWidth state its fields and width |
| CalendarTimer.FormatTimeReadsBack | components/dashboard/projects/project/CalendarTimer.tsx:30-36 | the clock face splits on ':' into exactly three fields that parse back to the hours, minutes and seconds of the count |
| CalendarTimer.FormatTimeWidth | components/dashboard/projects/project/CalendarTimer.tsx:34-36 | every field is padded to at least two digits and hours are not capped: the face has at least 8 characters, exactly 8 below 100 hours |
| CalendarTimer.Cleared | components/dashboard/projects/project/CalendarTimer.tsx:77-83 | the reset clears the start time, the running flag, the context's title, project and notes, and both inputs, and keeps the context's tag |
| CalendarTimer.HandleStart | components/dashboard/projects/project/CalendarTimer.tsx:39-57 | a blank title changes nothing; otherwise the context takes the untrimmed title, the page's project, the description and start = now, and the timer runs |
| CalendarTimer.HandleStop | components/dashboard/projects/project/CalendarTimer.tsx:59-92 | with no start time it is a no-op; otherwise the entry runs from the context's start to now, system tracked; on success everything is cleared, on failure nothing is |
| CalendarTimer.HandleReset | components/dashboard/projects/project/CalendarTimer.tsx:94-102 | reset stops the timer and clears the same fields as a successful stop, without sending |
| CalendarTimer.StartThenStop | components/dashboard/projects/project/CalendarTimer.tsx:39-92 | a start with a title followed by a successful stop sends an entry starting at the start instant and stops the timer |
| CheckOutDialog.FormatDurationForTitle | components/dashboard/projects/project/CheckOutDialog.tsx:25-34 | positive hours give "{h}h {m}m" or "{h}h" as the minutes are positive or not; otherwise positive minutes give "{m}m" and anything else (zero, negative, unparseable) gives "0m" |
| CheckOutDialog.FieldsOf | components/dashboard/projects/project/CheckOutDialog.tsx:26-28 | in "h:m:rest" the fields read are h and m, whatever rest is |
| CheckOutDialog.SecondsIgnored | components/dashboard/projects/project/CheckOutDialog.tsx:25-34 | the seconds field and anything after it do not influence the label |
| CheckOutDialog.LabelOfClockFace | components/dashboard/projects/project/CheckOutDialog.tsx:25-34 | the label of the calendar timer's face for s seconds names s's whole hours and remaining whole minutes, dropping the seconds |
| CheckOutDialog.OnOpen | components/dashboard/projects/project/CheckOutDialog.tsx:36-42 | while open the title becomes the duration label, " Work on ", and the project title; while closed nothing changes |
| CheckOutDialog.Submit | components/dashboard/projects/project/CheckOutDialog.tsx:44-51 | submit is refused iff the title is blank; otherwise it confirms the trimmed title and trimmed notes |
| CheckOutDialog.Close | components/dashboard/projects/project/CheckOutDialog.tsx:53-57 | closing empties title and notes |
| CheckOutDialog.DefaultTitleAccepted | components/dashboard/projects/project/CheckOutDialog.tsx:37-51 | the proposed title is never blank, so submitting it untouched always confirms |
| EventDetails.JsRem | components/dashboard/projects/project/EventDetailsModal.tsx:36 | JavaScript's remainder lies in [0, b) for a non-negative dividend and in (-b, 0] for a negative one, and differs from the dividend by a multiple of b |
| EventDetails.DurationInMinutes | components/dashboard/projects/project/EventDetailsModal.tsx:44-48 | the minute count is the floor of the difference over 60000 |
| EventDetails.FormatDuration | components/dashboard/projects/project/EventDetailsModal.tsx:31-42 | the duration label; LabelWithHours, LabelUnderAnHour and OneHourExactly state its two shapes |
| EventDetails.DurationDecomposition | components/dashboard/projects/project/EventDetailsModal.tsx:34-48 | for end >= start the hours are the whole hours of the difference, the minutes lie in 0..59, and hours*60 + minutes is the minute count |
| EventDetails.LabelWithHours | components/dashboard/projects/project/EventDetailsModal.tsx:38-40 | with whole hours the label is "{h}h {m}m", minutes shown even when 0 |
| EventDetails.LabelUnderAnHour | components/dashboard/projects/project/EventDetailsModal.tsx:41 | under an hour the label is "{m}m", and m is then the minute count |
| EventDetails.OneHourExactly | components/dashboard/projects/project/EventDetailsModal.tsx:38-40 | exactly one hour reads "1h 0m" (the check-out dialog would write "1h") |
| EventDetails.Details | components/dashboard/projects/project/EventDetailsModal.tsx:17 | a missing event renders nothing; a present one shows a label and a minute count bounded by the difference |
| DetailedView.InsertByStart | components/dashboard/projects/project/components/DetailedView.tsx:37-39 | inserting adds exactly the one entry, and the new head is either that entry or the old head |
| DetailedView.InsertKeepsSorted | components/dashboard/projects/project/components/DetailedView.tsx:37-39 | inserting into a latest-first list keeps it latest first |
| DetailedView.SortByStartDesc | components/dashboard/projects/project/components/DetailedView.tsx:37-39 | the sorted list is ordered by start, latest first, and is a permutation of its input |
| DetailedView.SortSortedIsIdentity | components/dashboard/projects/project/components/DetailedView.tsx:37-39 | sorting a list already ordered latest first returns it unchanged |
| DetailedView.TotalPages | components/dashboard/projects/project/components/DetailedView.tsx:47 | the page count is ceil(n/10): 0 for no entries, otherwise the least count of pages of ten holding n entries |
| DetailedView.SliceIndex | components/dashboard/projects/project/components/DetailedView.tsx:50 | a slice bound is clamped to the list; an in-range bound is kept and one past the end becomes the length |
| DetailedView.Page | components/dashboard/projects/project/components/DetailedView.tsx:48-50 | page p >= 1 holds the entries from index (p-1)*10 up to min(n, p*10), so at most 10 |
| DetailedView.PagesFromSuffix | components/dashboard/projects/project/components/DetailedView.tsx:47-50 | pages p, p+1, ... up to the last, concatenated, are the list from index (p-1)*10 on |
| DetailedView.PagesCoverList | components/dashboard/projects/project/components/DetailedView.tsx:47-50 | concatenating pages 1..totalPages gives the whole filtered list |
| DetailedView.PagesNonEmpty | components/dashboard/projects/project/components/DetailedView.tsx:47-50 | every page up to totalPages is non-empty, and every page before the last holds exactly 10 entries |
| DetailedView.Initial | components/dashboard/projects/project/components/DetailedView.tsx:22-27 | the view starts on page 1 with no filters |
| DetailedView.ChangeFilters | components/dashboard/projects/project/components/DetailedView.tsx:52-55 | a filter change installs the new filters and returns to page 1 |
| DetailedView.FilteredTracks | components/dashboard/projects/project/components/DetailedView.tsx:34-40 | the listed entries are ordered latest first and form a sub-multiset of the project's entries |
| DetailedView.Visible | components/dashboard/projects/project/components/DetailedView.tsx:34-50 | the entries on screen are at most 10 and form a sub-multiset of the project's entries |
| DetailedView.PaginationIffSeveralPages | components/dashboard/projects/project/components/DetailedView.tsx:151-159 | the controls show iff there is more than one page; "no results" shows iff there are no pages |
| DetailedView.WhitespaceSearchLabelledButUnfiltered | components/dashboard/projects/project/components/DetailedView.tsx:74-76 | a name search of one space shows "Filtered time" although the list is not narrowed |
| Pagination.Click | components/dashboard/projects/project/components/Pagination.tsx:18-34 | a click does nothing iff its button is disabled (Previous on page 1, Next on the last page); otherwise it asks for the page one lower or higher, which stays within [1, totalPages] |
| Pagination.RunStaysInRange | components/dashboard/projects/project/components/Pagination.tsx:18-34 | starting within [1, totalPages], any sequence of clicks keeps the page within [1, totalPages] |
| Pagination.NextClicksWalkForward | components/dashboard/projects/project/components/Pagination.tsx:28-30 | k clicks on Next from page p reach page p+k as long as that is not beyond the last page |
| Pagination.PageLabelReadsBack | components/dashboard/projects/project/components/Pagination.tsx:26 | the label's words are "Page", the page, "of" and the page count, and the numbers parse back |
| Pagination.PageLabel | components/dashboard/projects/project/components/Pagination.tsx:26 | the "Page p of n" label; PageLabelReadsBack states its words and numbers |
| ManualTimeDialog.Validate | components/dashboard/projects/project/ManualTimeDialog.tsx:36-61 | the blank-title check comes first, then missing times; a form passes iff it has a non-blank title and start < end <= now |
| ManualTimeDialog.Submit | components/dashboard/projects/project/ManualTimeDialog.tsx:33-94 | a refused form is kept and nothing is sent; otherwise the entry has the trimmed title, the trimmed notes and the page's project, and lies within start < end <= now; inputs reset on success and are kept on failure |
| ManualTimeDialog.Close | components/dashboard/projects/project/ManualTimeDialog.tsx:96-102 | closing empties every input |
| ManualTimeDialog.UtcDay | components/dashboard/projects/project/ManualTimeDialog.tsx:106 | the date part is the UTC midnight at or before the instant, within one day of it |
| ManualTimeDialog.OnOpen | components/dashboard/projects/project/ManualTimeDialog.tsx:104-115 | on opening the times become 09:00 and 17:00 local on the selected date's day, or on today's without one; title and notes are untouched |
| ManualTimeDialog.DefaultsAcceptedOncePast | components/dashboard/projects/project/ManualTimeDialog.tsx:104-115 | the proposed span lasts eight hours and passes validation once its end is past |
| ManualTimeDialog.SentEntriesAreOrdered | components/dashboard/projects/project/ManualTimeDialog.tsx:52-72 | every entry sent satisfies start < end <= now and carries no tag and no tracking type |
| EditForm.InitialProjectSelection | components/dashboard/reports/EditForm.tsx:24-31 | a project is preselected iff the entry has one, with the entry's project id |
| EditForm.InitialTagSelection | components/dashboard/reports/EditForm.tsx:33-40 | a tag is preselected iff the entry's tag is non-empty, with that tag as value and label |
| EditForm.FindProject | components/dashboard/reports/EditForm.tsx:63-66 | the lookup finds a project iff one has the id, and it returns the first such project |
| EditForm.OnProjectsLoaded | components/dashboard/reports/EditForm.tsx:61-74 | once projects arrive, the selection takes the entry's project with its real title; without projects, without a project on the entry, or when it is not listed, the selection stays |
| EditForm.ProjectOptions | components/dashboard/reports/EditForm.tsx:76-82 | the options are "No Project" with value "" and then one option per project, in order; a missing list gives only the first |
| EditForm.TagOptions | components/dashboard/reports/EditForm.tsx:84-90 | the options are "No Tag" with value "" and then one option per tag, in order; a missing list gives only the first |
| EditForm.Normalise | components/dashboard/reports/EditForm.tsx:94-95 | no selection and an empty value both become absent; any other selection gives its value |
| EditForm.HasChanges | components/dashboard/reports/EditForm.tsx:97-101 | the form differs from the entry in title, project, tag or notes; NoProjectAlwaysChanged, NoTagAlwaysChanged and UntouchedFormUnchanged state where the comparison of absent against "" decides it |
| EditForm.NoProjectAlwaysChanged | components/dashboard/reports/EditForm.tsx:94-101 | for an entry without a project, leaving the project unselected still counts as a change, since absent never equals "" |
| EditForm.NoTagAlwaysChanged | components/dashboard/reports/EditForm.tsx:95-100 | for an entry without a tag, leaving the tag unselected still counts as a change |
| EditForm.UntouchedFormUnchanged | components/dashboard/reports/EditForm.tsx:97-101 | for an entry with a project and a tag, the untouched form is not a change |
| EditForm.Submit | components/dashboard/reports/EditForm.tsx:92-122 | values failing the update schema stop there; with no change only afterSave runs; otherwise the request carries the trimmed title, normalised selections and notes, the form resets iff the request succeeds, and afterSave runs either way |
| EditForm.StoredUntrimmedTitleAlwaysChanges | lib/validations/time-track.ts:16 | because the schema trims the new title, an entry whose stored title has surrounding whitespace always counts as changed |
| TimeTrackSchema.ParseTrack | lib/validations/time-track.ts:5-13 | an entry passes iff its trimmed title has 1..128 characters, notes are absent or at most 1000, the tracking type is absent, "manual" or "system_tracked", and a present project id is an ObjectId; the parsed title is trimmed |
| TimeTrackSchema.DatesUnconstrained | lib/validations/time-track.ts:7-8 | whether an entry passes does not depend on its start and end, so end < start is accepted |
| TimeTrackSchema.ParseTrackIdempotent | lib/validations/time-track.ts:6 | parsing a parsed entry again gives the same entry |
| TimeTrackSchema.ParseUpdate | lib/validations/time-track.ts:15-25 | an update passes iff its trimmed new title has 1..128 characters, notes are at most 1000, and the project id is absent, empty or an ObjectId |
| TimeTrackSchema.SameTitleRule | lib/validations/time-track.ts:16 | the update schema accepts a new title iff the creation schema accepts it as a title, with the same trimmed result |
| TimeTrackSchema.BlankTitleRejected | lib/validations/time-track.ts:6 | a whitespace-only title fails, however long it is |
| ProjectCalendar.ToEvent | components/dashboard/projects/project/ProjectCalendar.tsx:54-71 | an event is manual iff the entry has notes in which "[MANUAL]" occurs; system iff not manual; the icon prefix and class follow; id, start, end and the entry are carried over |
| ProjectCalendar.Events | components/dashboard/projects/project/ProjectCalendar.tsx:54 | there is exactly one event per entry, in the same order |
| ProjectCalendar.TitleAfterIcon | components/dashboard/projects/project/ProjectCalendar.tsx:61 | removing the icon prefix from an event's title gives the entry's title |
| ProjectCalendar.ClassificationIgnoresTrackingType | components/dashboard/projects/project/ProjectCalendar.tsx:56 | changing the tracking type changes neither the classification nor the title |
| ProjectCalendar.ManualTypeWithoutMarkerShowsAsSystem | components/dashboard/projects/project/ProjectCalendar.tsx:56-57 | an entry recorded as manual but without the marker in its notes shows as system-tracked |
| ProjectCalendar.ManualAndSystemPartition | components/dashboard/projects/project/ProjectCalendar.tsx:56-57 | the manual events and the system events together account for every entry exactly once |
| CurrentTracks.TruncateNotes | components/dashboard/timer/CurrentTracks.tsx:50-52 | notes of at most 300 characters are shown unchanged; longer ones become their first 297 characters and "...", 300 in all |
| CurrentTracks.TruncateIdempotent | components/dashboard/timer/CurrentTracks.tsx:50-52 | cutting shown notes again changes nothing |
| CurrentTracks.ToRow | components/dashboard/timer/CurrentTracks.tsx:41-54 | a row shows the title, the tag or "No tag", and the cut notes exactly when the entry has non-empty notes |
| CurrentTracks.Render | components/dashboard/timer/CurrentTracks.tsx:14-32 | loading wins over an error and an error over data; with data, the empty list shows "No time tracks for today", and otherwise one row per entry in order |
| TimeTracks.OrElse | components/dashboard/timer/CurrentTracks.tsx:46 | `value || fallback` gives the value when present and non-empty, the fallback otherwise |

## Left out

- Rendering, effect scheduling, animations, the calendar widget and modal chrome are not
  modelled. Only the functions and transitions they wrap are.
- Fuse.js scoring, thresholds and ranking order are left out. The matcher is any function
  returning a sub-multiset of its collection. `createFuzzySearch` is not used by the
  pipeline and is not modelled.
- `lib/utils/date.ts` is not part of this model. So `calculateTotalDuration`,
  `getTrackDuration`, the "Total time" and "Filtered time" figures, and the source of the
  check-out dialog's `HH:MM:SS` duration are not covered.
- The ObjectId check (`objectIdValidation`, `ObjectId.isValid`) is not part of this model.
  It is a predicate parameter.
- Requests to the server are a success flag only. This covers `sendTimeTrack`,
  `editTimeTrack`, SWR `mutate`/`globalMutate`, alerts, toasts, `confirm` (a boolean
  parameter) and the processing flags. A refresh that fails after a successful send is
  not modelled either.
- The one-second tick intervals are display-only and are left out. The elapsed count is
  computed for a given "now".
- Each action reads "now" once. The source reads the clock separately at each step.
- Dates are integers. ISO strings, `toLocale*` formatting, invalid date strings and the
  date coercion of the schema are left out.
- `TimerCodec.Decode`: JSON is replaced by a codec for the one object shape the provider
  writes, plus `null`. The source's `JSON.parse` would also adopt any other valid JSON
  value (a number, an object of another shape). Here such text counts as unparseable, so
  `ProjectTimer.Load` discards it instead of adopting it. Only quotes and backslashes
  are escaped. `JSON.stringify` also escapes control characters (`\n`, `\u00XX`), which
  the model writes raw. The start time is read back with leading zeros allowed
  (`007`, `-00`), which `JSON.parse` rejects, and `-0` is read as 0 where `JSON.parse`
  gives -0; `JSON.stringify` never writes either.
- `ManualTimeDialog.OnOpen`: the local time zone is a fixed offset parameter. Daylight
  saving changes are not modelled.
- `DetailedView.SortByStartDesc`: the model states order and permutation, not stability.
  Entries with equal start times keep their input order in this insertion sort, but no
  contract says so.
- `CalendarTimer.FormatTime` is defined on non-negative second counts only.
- Lengths count characters. JavaScript counts UTF-16 code units, which matters for the
  128 and 1000 limits and for the 300-character cut with characters outside the Basic
  Multilingual Plane.
- `Text.LexLess` orders strings by code point. The default `Array.prototype.sort` used by
  `getAvailableTags` compares UTF-16 code units. The two orders differ for tags with
  characters outside the Basic Multilingual Plane.

=== FILE: calendar_timer.dfy ===
/**
 * The calendar page's timer (`CalendarTimer.tsx`): the `HH:MM:SS` clock face and the
 * start, stop-and-save and reset transitions over the shared time-track context.
 */
module CalendarTimer {
  import opened Wrappers
  import opened Text
  import opened TimeTracks

  // ---------------------------------------------------------------------------
  // The clock face
  // ---------------------------------------------------------------------------

  function Hours(s: nat): nat { s / 3600 }
  function Minutes(s: nat): nat { (s % 3600) / 60 }
  function Seconds(s: nat): nat { s % 60 }

  /** Hours, minutes and seconds recompose the count, with minutes and seconds below 60. */
  lemma Decomposition(s: nat)
    ensures Hours(s) * 3600 + Minutes(s) * 60 + Seconds(s) == s
    ensures Minutes(s) < 60 && Seconds(s) < 60
  {
    assert s == (s / 3600) * 3600 + s % 3600;
    assert s % 3600 == ((s % 3600) / 60) * 60 + (s % 3600) % 60;
    assert (s % 3600) % 60 == s % 60 by {
      assert s == (s / 3600) * 60 * 60 + s % 3600;
    }
  }

  /** `formatTime`: hours, minutes and seconds, each padded to two digits, hours uncapped. */
  function FormatTime(s: nat): string {
    PadStart2(NatToString(Hours(s))) + ":" + PadStart2(NatToString(Minutes(s))) + ":"
      + PadStart2(NatToString(Seconds(s)))
  }

  lemma PaddedHasNoColon(n: nat)
    ensures ':' !in PadStart2(NatToString(n))
  {
    var d := NatToString(n);
    var r := PadStart2(d);
    forall i | 0 <= i < |r|
      ensures r[i] != ':'
    {
      if i < |r| - |d| {
        assert r[..|r| - |d|][i] == '0';
      } else {
        assert r[i] == r[|r| - |d|..][i - (|r| - |d|)];
      }
    }
  }

  /** Three colon-free fields joined by colons split back into those fields. */
  lemma SplitThreeFields(a: string, b: string, c: string)
    requires ':' !in a && ':' !in b && ':' !in c
    ensures Split(a + ":" + b + ":" + c, ':') == [a, b, c]
  {
    assert [a, b, c][1..] == [b, c] && [b, c][1..] == [c];
    assert Join([b, c], ':') == b + [':'] + c;
    assert a + ":" + b + ":" + c == a + [':'] + (b + [':'] + c);
    SplitJoin([a, b, c], ':');
  }

  /**
   * The clock face has exactly three colon-separated fields, and `parseInt` reads them back
   * as the hours, minutes and seconds of the count, which recompose it.
   */
  lemma FormatTimeReadsBack(s: nat)
    ensures |Split(FormatTime(s), ':')| == 3
    ensures ParseInt(Split(FormatTime(s), ':')[0]) == Some(Hours(s))
    ensures ParseInt(Split(FormatTime(s), ':')[1]) == Some(Minutes(s))
    ensures ParseInt(Split(FormatTime(s), ':')[2]) == Some(Seconds(s))
    ensures Hours(s) * 3600 + Minutes(s) * 60 + Seconds(s) == s
  {
    var h, m, sec := Hours(s), Minutes(s), Seconds(s);
    PaddedHasNoColon(h);
    PaddedHasNoColon(m);
    PaddedHasNoColon(sec);
    SplitThreeFields(PadStart2(NatToString(h)), PadStart2(NatToString(m)), PadStart2(NatToString(sec)));
    ParsePaddedNat(h);
    ParsePaddedNat(m);
    ParsePaddedNat(sec);
    Decomposition(s);
  }

  lemma {:induction false} NatToStringShort(n: nat)
    ensures n < 10 ==> |NatToString(n)| == 1
    ensures n < 100 ==> |NatToString(n)| <= 2
  {
    if n >= 10 {
      NatToStringShort(n / 10);
    }
  }

  /** Every field is at least two characters wide; below 100 hours the face is exactly 8. */
  lemma FormatTimeWidth(s: nat)
    ensures |FormatTime(s)| >= 8
    ensures s < 360000 ==> |FormatTime(s)| == 8
  {
    var h, m, sec := PadStart2(NatToString(Hours(s))), PadStart2(NatToString(Minutes(s))), PadStart2(NatToString(Seconds(s)));
    assert |FormatTime(s)| == |h| + |m| + |sec| + 2;
    FieldsBelowSixty(s);
    PaddedWidth(Hours(s));
    PaddedWidth(Minutes(s));
    PaddedWidth(Seconds(s));
    if s < 360000 {
      HoursBelowHundred(s);
    }
  }

  /** A padded field is at least two characters, and exactly two below 100. */
  lemma PaddedWidth(n: nat)
    ensures |PadStart2(NatToString(n))| >= 2
    ensures n < 100 ==> |PadStart2(NatToString(n))| == 2
  {
    NatToStringShort(n);
  }

  lemma FieldsBelowSixty(s: nat)
    ensures Minutes(s) < 60 && Seconds(s) < 60
  {
  }

  lemma HoursBelowHundred(s: nat)
    requires s < 360000
    ensures Hours(s) < 100
  {
  }

  // ---------------------------------------------------------------------------
  // Transitions
  // ---------------------------------------------------------------------------

  /** The shared time-track context (`store/time-track-context.tsx`). */
  datatype TrackContext = TrackContext(startTime: Option<int>, title: string, tag: string, projectId: string, notes: string)

  /** The shared context, the shared timer's running flag and the component's own two inputs. */
  datatype State = State(context: TrackContext, running: bool, title: string, description: string)

  /** The reset both stop-and-save and reset perform; the context's tag is not among the fields reset. */
  function Cleared(st: State): (r: State)
    ensures r.context.startTime.None? && !r.running
    ensures r.context.title == "" && r.context.projectId == "" && r.context.notes == ""
    ensures r.title == "" && r.description == ""
    ensures r.context.tag == st.context.tag
  {
    State(TrackContext(None, "", st.context.tag, "", ""), false, "", "")
  }

  /**
   * `handleStart`: a blank title changes nothing; otherwise the context records the title
   * as typed, the page's project, the description as notes and the start instant, and the
   * timer runs.
   */
  function HandleStart(st: State, routeProjectId: string, now: int): (r: State)
    ensures IsBlank(st.title) ==> r == st
    ensures !IsBlank(st.title) ==>
      && r.running
      && r.context == TrackContext(Some(now), st.title, st.context.tag, routeProjectId, st.description)
      && r.title == st.title && r.description == st.description
  {
    if Trim(st.title) == "" then st
    else State(TrackContext(Some(now), st.title, st.context.tag, routeProjectId, st.description), true, st.title, st.description)
  }

  /**
   * `handleStop`: without a start instant, nothing. Otherwise it sends a system-tracked
   * entry from the context's start to now for the page's project; on success everything
   * is reset and the timer stops, on failure the state is kept.
   */
  function HandleStop(st: State, routeProjectId: string, now: int, sendOk: bool): (r: (State, Option<Recording>))
    ensures st.context.startTime.None? ==> r == (st, None)
    ensures st.context.startTime.Some? ==>
      && r.1 == Some(Recording(st.context.title, st.context.startTime.value, now, Some(routeProjectId),
                               Some(st.context.tag), Some(st.context.notes), Some(SystemTracked)))
      && (sendOk ==> r.0 == Cleared(st))
      && (!sendOk ==> r.0 == st)
  {
    match st.context.startTime
    case None => (st, None)
    case Some(start) =>
      var entry := Recording(st.context.title, start, now, Some(routeProjectId),
                             Some(st.context.tag), Some(st.context.notes), Some(SystemTracked));
      if sendOk then (Cleared(st), Some(entry)) else (st, Some(entry))
  }

  /** `handleReset`: stops and clears without sending anything. */
  function HandleReset(st: State): (r: State)
    ensures r == Cleared(st)
    ensures !r.running && r.context.startTime.None?
  {
    Cleared(st)
  }

  /** A started timer can always be stopped, and a successful stop returns to a startable state. */
  lemma StartThenStop(st: State, routeProjectId: string, t0: int, t1: int)
    requires !IsBlank(st.title)
    ensures HandleStop(HandleStart(st, routeProjectId, t0), routeProjectId, t1, true).1.Some?
    ensures HandleStop(HandleStart(st, routeProjectId, t0), routeProjectId, t1, true).1.value.start == t0
    ensures !HandleStop(HandleStart(st, routeProjectId, t0), routeProjectId, t1, true).0.running
  {
  }
}

=== FILE: check_in_button.dfy ===
/**
 * The check-in button of a project page (`ProjectCheckInButton.tsx`): checking in,
 * switching from another project's timer through a confirmation and an automatic
 * check-out, checking out through the dialog, and the elapsed-seconds display.
 * The user's answer to the confirmation and the success of the create-entry request
 * are parameters; "now" is a single instant for the whole action.
 */
module CheckInButton {
  import opened Wrappers
  import opened TimeTracks
  import opened TimerCodec
  import opened ProjectTimer

  /**
   * The result of a button action: the provider afterwards, the entry handed to the
   * create-entry service (if any was), and whether that request failed.
   */
  datatype Outcome = Outcome(provider: Provider, sent: Option<Recording>, failed: bool)

  /** The entry built from a check-out snapshot; empty notes are sent as absent. */
  function EntryFromSnapshot(snap: Snapshot, title: string, notes: string): Recording {
    Recording(
      title, snap.startTime, snap.endTime, Some(snap.projectId), None,
      if notes == "" then None else Some(notes),
      Some(SystemTracked))
  }

  /**
   * `handleCheckOutInternal`: check out, and when there was a timer, send its entry.
   * Whatever the request's fate, the timer is already gone.
   */
  function HandleCheckOutInternal(p: Provider, title: string, notes: string, now: int, sendOk: bool): (r: Outcome)
    ensures p.active.None? ==> r == Outcome(p, None, false)
    ensures p.active.Some? ==>
      && r.provider.active.None? && Persisted(r.provider)
      && r.failed == !sendOk
      && r.sent.Some?
      && r.sent.value.title == title
      && r.sent.value.start == p.active.value.startTime
      && r.sent.value.end == now
      && r.sent.value.projectId == Some(p.active.value.projectId)
      && r.sent.value.trackingType == Some(SystemTracked)
      && r.sent.value.tag.None?
      && (r.sent.value.notes.None? <==> notes == "")
      && (notes != "" ==> r.sent.value.notes == Some(notes))
  {
    var (after, snap) := CheckOut(p, now);
    match snap
    case None => Outcome(after, None, false)
    case Some(s) => Outcome(after, Some(EntryFromSnapshot(s, title, notes)), !sendOk)
  }

  /** The title given to the entry of a project left by switching. */
  function SwitchTitle(projectTitle: string): string {
    "Work on " + projectTitle
  }

  /** Another project's timer is running. */
  predicate OtherProjectActive(p: Provider, projectId: string) {
    p.active.Some? && p.active.value.projectId != projectId
  }

  /**
   * `handleCheckIn`. Without another project's timer it checks in directly (restarting the
   * timer if this project's own was running). With one, a declined confirmation changes
   * nothing; a confirmed one checks the other project out under the title
   * "Work on <its title>" with no notes, and checks in only if sending that entry succeeded.
   */
  function HandleCheckIn(p: Provider, projectId: string, projectTitle: string, confirmed: bool, sendOk: bool, now: int): (r: Outcome)
    ensures !OtherProjectActive(p, projectId) ==>
      r == Outcome(CheckIn(p, projectId, projectTitle, now), None, false)
    ensures OtherProjectActive(p, projectId) && !confirmed ==> r == Outcome(p, None, false)
    ensures OtherProjectActive(p, projectId) && confirmed ==>
      && r.sent == Some(Recording(
           SwitchTitle(p.active.value.projectTitle), p.active.value.startTime, now,
           Some(p.active.value.projectId), None, None, Some(SystemTracked)))
      && r.failed == !sendOk
      && (sendOk ==> r.provider.active == Some(ActiveTimer(projectId, projectTitle, now)))
      && (!sendOk ==> r.provider.active.None?)
    ensures Persisted(p) ==> Persisted(r.provider)
  {
    if OtherProjectActive(p, projectId) then
      if !confirmed then Outcome(p, None, false)
      else
        var out := HandleCheckOutInternal(p, SwitchTitle(p.active.value.projectTitle), "", now, sendOk);
        if out.failed then out
        else Outcome(CheckIn(out.provider, projectId, projectTitle, now), out.sent, false)
    else Outcome(CheckIn(p, projectId, projectTitle, now), None, false)
  }

  /**
   * `handleCheckOutConfirm`: the dialog's title and notes go into the entry; a failed
   * request is caught and reported, and the timer stays checked out either way.
   */
  function HandleCheckOutConfirm(p: Provider, title: string, notes: string, now: int, sendOk: bool): (r: Outcome)
    ensures r.provider.active.None?
    ensures r.failed <==> p.active.Some? && !sendOk
    ensures r.sent.Some? <==> p.active.Some?
    ensures r.sent.Some? ==> r.sent.value.title == title && r.sent.value.end == now
  {
    HandleCheckOutInternal(p, title, notes, now, sendOk)
  }

  /**
   * The elapsed-seconds display: while this project is checked in, the whole seconds since
   * its start, rounded down (also for a start in the future); otherwise 0.
   */
  function ElapsedSeconds(active: Option<ActiveTimer>, projectId: string, now: int): (e: int)
    ensures !IsCheckedIn(active, projectId) ==> e == 0
    ensures IsCheckedIn(active, projectId) ==>
      e * 1000 <= now - active.value.startTime < (e + 1) * 1000
  {
    if IsCheckedIn(active, projectId) then (now - active.value.startTime) / 1000 else 0
  }

  /** Elapsed seconds never go negative once the clock has reached the start. */
  lemma ElapsedNonNegative(active: Option<ActiveTimer>, projectId: string, now: int)
    requires active.Some? ==> active.value.startTime <= now
    ensures ElapsedSeconds(active, projectId, now) >= 0
  {
  }

  /**
   * A switch whose request fails leaves no timer at all: the old one was cleared before
   * sending and the new check-in never ran, so the next reload also finds nothing.
   */
  lemma FailedSwitchLeavesIdle(p: Provider, projectId: string, projectTitle: string, now: int)
    requires OtherProjectActive(p, projectId)
    ensures HandleCheckIn(p, projectId, projectTitle, true, false, now).provider.active.None?
    ensures Load(HandleCheckIn(p, projectId, projectTitle, true, false, now).provider.store).active.None?
  {
    var r := HandleCheckIn(p, projectId, projectTitle, true, false, now);
    ReloadAfterSave(None, p.store);
    assert r.provider.store == Save(None, p.store);
  }
}

=== FILE: check_out_dialog.dfy ===
/**
 * The check-out dialog (`CheckOutDialog.tsx`): turning the `HH:MM:SS` duration it is shown
 * into a short "Xh Ym" label, the default title built from it, submit and close.
 */
module CheckOutDialog {
  import opened Wrappers
  import opened Text
  import CalendarTimer

  /** `n > 0` for a `parseInt` result, where `NaN > 0` is false. */
  predicate Positive(v: Option<int>) {
    v.Some? && v.value > 0
  }

  /** The hours and minutes fields of a duration; a missing field reads as `NaN`. */
  function HoursField(duration: string): Option<int> {
    ParseInt(Split(duration, ':')[0])
  }

  function MinutesField(duration: string): Option<int> {
    var parts := Split(duration, ':');
    if |parts| > 1 then ParseInt(parts[1]) else None
  }

  /**
   * `formatDurationForTitle`: only the first two fields are read. Positive hours print
   * as "{h}h", followed by " {m}m" when the minutes are positive; otherwise positive
   * minutes print as "{m}m", and anything else as "0m".
   */
  function FormatDurationForTitle(duration: string): (r: string)
    ensures Positive(HoursField(duration)) && Positive(MinutesField(duration)) ==>
      r == NatToString(HoursField(duration).value) + "h " + NatToString(MinutesField(duration).value) + "m"
    ensures Positive(HoursField(duration)) && !Positive(MinutesField(duration)) ==>
      r == NatToString(HoursField(duration).value) + "h"
    ensures !Positive(HoursField(duration)) && Positive(MinutesField(duration)) ==>
      r == NatToString(MinutesField(duration).value) + "m"
    ensures !Positive(HoursField(duration)) && !Positive(MinutesField(duration)) ==> r == "0m"
  {
    var hours := HoursField(duration);
    var minutes := MinutesField(duration);
    if Positive(hours) then
      if Positive(minutes) then NatToString(hours.value) + "h " + NatToString(minutes.value) + "m"
      else NatToString(hours.value) + "h"
    else if Positive(minutes) then NatToString(minutes.value) + "m"
    else "0m"
  }

  /** In "h:m:rest" the hours field is `h` and the minutes field is `m`, whatever `rest` is. */
  lemma FieldsOf(h: string, m: string, rest: string)
    requires ':' !in h && ':' !in m
    ensures HoursField(h + ":" + m + ":" + rest) == ParseInt(h)
    ensures MinutesField(h + ":" + m + ":" + rest) == ParseInt(m)
  {
    var s := h + ":" + m + ":" + rest;
    assert s == h + [':'] + (m + [':'] + rest);
    SplitCons(h, ':', m + [':'] + rest);
    SplitCons(m, ':', rest);
    assert Split(s, ':') == [h] + ([m] + Split(rest, ':'));
  }

  /** The seconds field, and anything after it, has no influence on the label. */
  lemma SecondsIgnored(h: string, m: string, rest1: string, rest2: string)
    requires ':' !in h && ':' !in m
    ensures FormatDurationForTitle(h + ":" + m + ":" + rest1) == FormatDurationForTitle(h + ":" + m + ":" + rest2)
  {
    FieldsOf(h, m, rest1);
    FieldsOf(h, m, rest2);
  }

  /**
   * Reading the calendar timer's clock face for `s` seconds labels its whole hours and
   * remaining whole minutes; seconds are dropped.
   */
  lemma LabelOfClockFace(s: nat)
    ensures var h, m := CalendarTimer.Hours(s), CalendarTimer.Minutes(s);
      FormatDurationForTitle(CalendarTimer.FormatTime(s)) ==
        if h > 0 && m > 0 then NatToString(h) + "h " + NatToString(m) + "m"
        else if h > 0 then NatToString(h) + "h"
        else if m > 0 then NatToString(m) + "m"
        else "0m"
  {
    CalendarTimer.FormatTimeReadsBack(s);
  }

  /** The dialog's title and notes inputs. */
  datatype Dialog = Dialog(title: string, notes: string)

  /** The title the dialog proposes: the duration label, " Work on ", the project's title. */
  function DefaultTitle(duration: string, projectTitle: string): string {
    FormatDurationForTitle(duration) + " Work on " + projectTitle
  }

  /** Opening (or a new duration or project while open) replaces the title with the default. */
  function OnOpen(d: Dialog, isOpen: bool, duration: string, projectTitle: string): (r: Dialog)
    ensures isOpen ==> r == d.(title := DefaultTitle(duration, projectTitle))
    ensures !isOpen ==> r == d
  {
    if isOpen then d.(title := DefaultTitle(duration, projectTitle)) else d
  }

  /** `handleSubmit`: a blank title is refused; otherwise confirm with trimmed title and notes. */
  function Submit(d: Dialog): (r: Option<(string, string)>)
    ensures r.None? <==> IsBlank(d.title)
    ensures r.Some? ==> r.value == (Trim(d.title), Trim(d.notes)) && r.value.0 != ""
  {
    if Trim(d.title) == "" then None else Some((Trim(d.title), Trim(d.notes)))
  }

  /** `handleClose`: both inputs are emptied. */
  function Close(d: Dialog): (r: Dialog)
    ensures r.title == "" && r.notes == ""
  {
    Dialog("", "")
  }

  /** The duration label always starts with a digit. */
  lemma LabelStartsWithDigit(duration: string)
    ensures FormatDurationForTitle(duration) != [] && IsDigit(FormatDurationForTitle(duration)[0])
  {
    if Positive(HoursField(duration)) {
      assert IsDigit(NatToString(HoursField(duration).value)[0]);
    } else if Positive(MinutesField(duration)) {
      assert IsDigit(NatToString(MinutesField(duration).value)[0]);
    }
  }

  lemma NotBlankAtFirst(t: string)
    requires t != [] && !IsWhitespace(t[0])
    ensures !IsBlank(t)
  {
  }

  /** The proposed title is never blank, so submitting it untouched always confirms. */
  lemma DefaultTitleAccepted(d: Dialog, duration: string, projectTitle: string)
    ensures Submit(OnOpen(d, true, duration, projectTitle)).Some?
  {
    var durationLabel := FormatDurationForTitle(duration);
    LabelStartsWithDigit(duration);
    DigitNotWhitespace(durationLabel[0]);
    var t := DefaultTitle(duration, projectTitle);
    assert t[0] == durationLabel[0];
    NotBlankAtFirst(t);
    assert OnOpen(d, true, duration, projectTitle).title == t;
  }
}

=== FILE: current_tracks.dfy ===
/**
 * Today's entries on the dashboard (`CurrentTracks.tsx`): what the widget shows while
 * loading, on error, for an empty day, and for each entry its title, its tag (or
 * "No tag") and its notes, cut to 300 characters.
 */
module CurrentTracks {
  import opened Wrappers
  import opened TimeTracks

  const MaxNotes: int := 300
  const Ellipsis: string := "..."

  /** Notes longer than 300 characters keep their first 297 and end in "...". */
  function TruncateNotes(notes: string): (r: string)
    ensures |r| <= MaxNotes
    ensures |notes| <= MaxNotes ==> r == notes
    ensures |notes| > MaxNotes ==>
      |r| == MaxNotes && r[..MaxNotes - |Ellipsis|] == notes[..MaxNotes - |Ellipsis|]
      && r[MaxNotes - |Ellipsis|..] == Ellipsis
  {
    if |notes| > MaxNotes then notes[..MaxNotes - |Ellipsis|] + Ellipsis else notes
  }

  /** Cutting is done once: shown notes are short enough to be shown unchanged. */
  lemma TruncateIdempotent(notes: string)
    ensures TruncateNotes(TruncateNotes(notes)) == TruncateNotes(notes)
  {
  }

  /** One row of the list. */
  datatype Row = Row(title: string, tag: string, notes: Option<string>)

  function ToRow(t: TimeTrack): (r: Row)
    ensures r.title == t.title
    ensures Truthy(t.tag) ==> r.tag == t.tag.value
    ensures !Truthy(t.tag) ==> r.tag == "No tag"
    ensures r.notes.Some? <==> Truthy(t.notes)
    ensures r.notes.Some? ==> r.notes.value == TruncateNotes(t.notes.value) && r.notes.value != ""
  {
    Row(t.title, OrElse(t.tag, "No tag"), if Truthy(t.notes) then Some(TruncateNotes(t.notes.value)) else None)
  }

  /** What the widget renders. */
  datatype View = Loading | Failed | NoTracksToday | TrackList(rows: seq<Row>)

  /** Loading wins over an error, an error over the data; an empty day has its own message. */
  function Render(isLoading: bool, failed: bool, tracks: seq<TimeTrack>): (v: View)
    ensures isLoading ==> v == Loading
    ensures !isLoading && failed ==> v == Failed
    ensures !isLoading && !failed ==> (v == NoTracksToday <==> tracks == [])
    ensures v.TrackList? ==> |v.rows| == |tracks| && v.rows != []
    ensures v.TrackList? ==> forall i :: 0 <= i < |tracks| ==> v.rows[i] == ToRow(tracks[i])
  {
    if isLoading then Loading
    else if failed then Failed
    else if |tracks| == 0 then NoTracksToday
    else TrackList(seq(|tracks|, i requires 0 <= i < |tracks| => ToRow(tracks[i])))
  }
}

=== FILE: detailed_view.dfy ===
/**
 * The list view of a project's entries (`DetailedView.tsx`): the filtered entries sorted
 * latest first, cut into pages of ten, the page reset on a filter change, and which of
 * the optional blocks (pagination, "no results", the "Filtered time" label) appear.
 */
module DetailedView {
  import opened Wrappers
  import opened TimeTracks
  import opened FuzzySearch

  const RecordsPerPage: int := 10

  // ---------------------------------------------------------------------------
  // Sorting
  // ---------------------------------------------------------------------------

  /** Latest start first. */
  predicate SortedByStartDesc(xs: seq<TimeTrack>) {
    forall i, j :: 0 <= i < j < |xs| ==> xs[i].start >= xs[j].start
  }

  /** Places `t` before the first entry that does not start later than it. */
  function InsertByStart(t: TimeTrack, xs: seq<TimeTrack>): (r: seq<TimeTrack>)
    ensures multiset(r) == multiset(xs) + multiset{t}
    ensures |r| == |xs| + 1
    ensures r[0] == t || (xs != [] && r[0] == xs[0])
  {
    if xs == [] || xs[0].start <= t.start then [t] + xs
    else
      assert xs == [xs[0]] + xs[1..];
      [xs[0]] + InsertByStart(t, xs[1..])
  }

  /** Inserting into a list sorted latest first keeps it sorted. */
  lemma {:induction false} InsertKeepsSorted(t: TimeTrack, xs: seq<TimeTrack>)
    requires SortedByStartDesc(xs)
    ensures SortedByStartDesc(InsertByStart(t, xs))
  {
    if xs != [] && xs[0].start > t.start {
      InsertKeepsSorted(t, xs[1..]);
      var rest := InsertByStart(t, xs[1..]);
      assert rest[0].start <= xs[0].start;
      assert forall k | 0 <= k < |rest| :: rest[k].start <= rest[0].start;
    }
  }

  /**
   * `filtered.sort((a, b) => b.start - a.start)`: an insertion sort that orders the
   * entries by start time, latest first, and keeps every entry exactly as often as it occurs.
   */
  function SortByStartDesc(xs: seq<TimeTrack>): (r: seq<TimeTrack>)
    ensures SortedByStartDesc(r)
    ensures multiset(r) == multiset(xs)
    ensures |r| == |xs|
  {
    if xs == [] then []
    else
      assert xs == [xs[0]] + xs[1..];
      var rest := SortByStartDesc(xs[1..]);
      InsertKeepsSorted(xs[0], rest);
      InsertByStart(xs[0], rest)
  }

  /** Sorting an already sorted list changes nothing. */
  lemma {:induction false} SortSortedIsIdentity(xs: seq<TimeTrack>)
    requires SortedByStartDesc(xs)
    ensures SortByStartDesc(xs) == xs
  {
    if xs != [] {
      SortSortedIsIdentity(xs[1..]);
      assert xs == [xs[0]] + xs[1..];
    }
  }

  // ---------------------------------------------------------------------------
  // Pagination arithmetic
  // ---------------------------------------------------------------------------

  /** `Math.ceil(n / 10)`. */
  function TotalPages(n: nat): (r: nat)
    ensures (r - 1) * RecordsPerPage < n <= r * RecordsPerPage || (n == 0 && r == 0)
    ensures r == 0 <==> n == 0
  {
    (n + RecordsPerPage - 1) / RecordsPerPage
  }

  /** A `slice` bound: negative counts from the end, and everything is clamped to the list. */
  function SliceIndex(i: int, n: nat): (r: nat)
    ensures r <= n
    ensures 0 <= i <= n ==> r == i
    ensures i > n ==> r == n
  {
    if i < 0 then (if n + i < 0 then 0 else n + i)
    else if i > n then n
    else i
  }

  /** `Array.prototype.slice(start, end)`. */
  function Slice(xs: seq<TimeTrack>, start: int, end: int): (r: seq<TimeTrack>)
    ensures |r| <= |xs|
  {
    var s := SliceIndex(start, |xs|);
    var e := SliceIndex(end, |xs|);
    if e <= s then [] else xs[s..e]
  }

  function Min(a: int, b: int): int {
    if a <= b then a else b
  }

  /** The entries shown on page `page`: indices `(page - 1) * 10` up to `page * 10`. */
  function Page(xs: seq<TimeTrack>, page: int): (r: seq<TimeTrack>)
    ensures page >= 1 ==>
      var from := Min((page - 1) * RecordsPerPage, |xs|);
      r == xs[from..Min(page * RecordsPerPage, |xs|)]
    ensures page >= 1 ==> |r| <= RecordsPerPage
  {
    var startIndex := (page - 1) * RecordsPerPage;
    Slice(xs, startIndex, startIndex + RecordsPerPage)
  }

  /** Pages `page`, `page + 1`, ... up to the last one, in order. */
  function PagesFrom(xs: seq<TimeTrack>, page: nat): seq<TimeTrack>
    requires page >= 1
    decreases TotalPages(|xs|) + 1 - page
  {
    if page > TotalPages(|xs|) then [] else Page(xs, page) + PagesFrom(xs, page + 1)
  }

  lemma {:induction false} PagesFromSuffix(xs: seq<TimeTrack>, page: nat)
    requires 1 <= page
    ensures PagesFrom(xs, page) == xs[Min((page - 1) * RecordsPerPage, |xs|)..]
    decreases TotalPages(|xs|) + 1 - page
  {
    if page <= TotalPages(|xs|) {
      PagesFromSuffix(xs, page + 1);
      var a := Min((page - 1) * RecordsPerPage, |xs|);
      var b := Min(page * RecordsPerPage, |xs|);
      assert xs[a..] == xs[a..b] + xs[b..];
    }
  }

  /** Reading every page in turn gives back the whole list, each entry once and in order. */
  lemma PagesCoverList(xs: seq<TimeTrack>)
    ensures PagesFrom(xs, 1) == xs
  {
    PagesFromSuffix(xs, 1);
  }

  /** Every page up to the last is non-empty, and the last one holds the remainder. */
  lemma PagesNonEmpty(xs: seq<TimeTrack>, page: int)
    requires 1 <= page <= TotalPages(|xs|)
    ensures Page(xs, page) != []
    ensures page < TotalPages(|xs|) ==> |Page(xs, page)| == RecordsPerPage
  {
  }

  // ---------------------------------------------------------------------------
  // The view
  // ---------------------------------------------------------------------------

  /** The view's state: the current filters and page. */
  datatype View = View(filters: SearchFilters, currentPage: int)

  /** The filters the view starts with: no searches, no tag, no dates. */
  const NoFilters: SearchFilters := SearchFilters("", "", "", None, None)

  function Initial(): (v: View)
    ensures v.currentPage == 1 && v.filters == NoFilters
  {
    View(NoFilters, 1)
  }

  /** A filter change goes back to the first page. */
  function ChangeFilters(v: View, filters: SearchFilters): (r: View)
    ensures r.filters == filters && r.currentPage == 1
  {
    View(filters, 1)
  }

  /** The entries of the view, filtered and sorted latest first. */
  function FilteredTracks(tracks: seq<TimeTrack>, v: View, matcher: Matcher): (r: seq<TimeTrack>)
    ensures SortedByStartDesc(r)
    ensures multiset(r) <= multiset(tracks)
  {
    SortByStartDesc(FilterTimeTracks(tracks, v.filters, matcher))
  }

  lemma SliceWithin(xs: seq<TimeTrack>, i: nat, j: nat)
    requires i <= j <= |xs|
    ensures multiset(xs[i..j]) <= multiset(xs)
  {
    assert xs == xs[..i] + xs[i..j] + xs[j..];
  }

  lemma PageWithin(xs: seq<TimeTrack>, page: int)
    requires page >= 1
    ensures multiset(Page(xs, page)) <= multiset(xs)
  {
    var from := Min((page - 1) * RecordsPerPage, |xs|);
    var to := Min(page * RecordsPerPage, |xs|);
    assert Page(xs, page) == xs[from..to];
    SliceWithin(xs, from, to);
  }

  /** The entries listed on screen: the current page of the filtered entries. */
  function Visible(tracks: seq<TimeTrack>, v: View, matcher: Matcher): (r: seq<TimeTrack>)
    requires v.currentPage >= 1
    ensures |r| <= RecordsPerPage
    ensures multiset(r) <= multiset(tracks)
  {
    var filtered := FilteredTracks(tracks, v, matcher);
    PageWithin(filtered, v.currentPage);
    Page(filtered, v.currentPage)
  }

  /** The pagination controls appear only when there is more than one page. */
  predicate ShowPagination(n: nat) {
    n > RecordsPerPage
  }

  predicate ShowNoResults(n: nat) {
    n == 0
  }

  lemma PaginationIffSeveralPages(n: nat)
    ensures ShowPagination(n) <==> TotalPages(n) > 1
    ensures ShowNoResults(n) <==> TotalPages(n) == 0
  {
  }

  /** The "Filtered time" label appears when any search text or the tag is non-empty. */
  predicate ShowsFilteredLabel(f: SearchFilters) {
    f.searchByName != "" || f.searchByNotes != "" || f.selectedTag != ""
  }

  /**
   * The label and the filter disagree on whitespace: a name search of only spaces shows
   * "Filtered time" although the list is not narrowed at all.
   */
  lemma WhitespaceSearchLabelledButUnfiltered(tracks: seq<TimeTrack>, matcher: Matcher)
    ensures var f := NoFilters.(searchByName := " ");
      ShowsFilteredLabel(f) && FilterTimeTracks(tracks, f, matcher) == tracks
  {
    var f := NoFilters.(searchByName := " ");
    assert IsBlankSpace: Text.IsBlank(" ") by { assert Text.IsWhitespace(' '); }
    FilterWithoutCriteria(tracks, f, matcher);
  }
}

=== FILE: edit_form.dfy ===
/**
 * The form that edits an existing entry (`EditForm.tsx`): the initial project and tag
 * selections, the option lists, and `onSubmit`, which skips the request when nothing
 * changed and otherwise sends it and closes the form whatever the outcome. The form's
 * values pass `timeTrackUpdateSchema` before `onSubmit` sees them; the edit request's
 * success is a parameter.
 */
module EditForm {
  import opened Wrappers
  import opened Text
  import opened TimeTracks
  import opened TimeTrackSchema

  /** An entry of a select list (its value and its displayed label); a selection is `Option<Choice>`. */
  datatype Choice = Choice(value: string, text: string)

  /** A project as the project list delivers it. */
  datatype ProjectRef = ProjectRef(id: string, projectTitle: string)

  /** The project selected at first: the entry's project, labelled "Loading..." until the list arrives. */
  function InitialProjectSelection(initial: TimeTrack): (r: Option<Choice>)
    ensures r.Some? <==> Truthy(initial.projectId)
    ensures r.Some? ==> r.value.value == initial.projectId.value
  {
    if Truthy(initial.projectId) then Some(Choice(initial.projectId.value, "Loading...")) else None
  }

  /** The tag selected at first: present exactly when the entry has a non-empty tag. */
  function InitialTagSelection(initial: TimeTrack): (r: Option<Choice>)
    ensures r.Some? <==> Truthy(initial.tag)
    ensures r.Some? ==> r.value == Choice(initial.tag.value, initial.tag.value)
  {
    if Truthy(initial.tag) then Some(Choice(initial.tag.value, initial.tag.value)) else None
  }

  /** Position `i` holds the first project with id `id`. */
  predicate FirstWithId(projects: seq<ProjectRef>, id: string, i: int) {
    0 <= i < |projects| && projects[i].id == id && forall j :: 0 <= j < i ==> projects[j].id != id
  }

  /** `projects.find(p => p._id === id)`: the first project in the list with the given id. */
  function FindProject(projects: seq<ProjectRef>, id: string): (r: Option<ProjectRef>)
    ensures r.Some? <==> exists i :: 0 <= i < |projects| && projects[i].id == id
    ensures r.Some? ==> r.value.id == id && exists i :: FirstWithId(projects, id, i) && projects[i] == r.value
  {
    if projects == [] then None
    else if projects[0].id == id then Some(projects[0])
    else
      var r := FindProject(projects[1..], id);
      assert r.Some? ==> exists i :: FirstWithId(projects, id, i) && projects[i] == r.value by {
        if r.Some? {
          var k :| FirstWithId(projects[1..], id, k) && projects[1..][k] == r.value;
          assert FirstWithId(projects, id, k + 1);
        }
      }
      r
  }

  /**
   * Once the project list arrives, the selection takes the entry's project with its
   * real title; a project missing from the list leaves the selection as it was.
   */
  function OnProjectsLoaded(selection: Option<Choice>, projects: Option<seq<ProjectRef>>, initial: TimeTrack): (r: Option<Choice>)
    ensures projects.None? || !Truthy(initial.projectId) ==> r == selection
    ensures projects.Some? && Truthy(initial.projectId) ==>
      match FindProject(projects.value, initial.projectId.value)
      case None => r == selection
      case Some(p) => r == Some(Choice(initial.projectId.value, p.projectTitle))
  {
    if projects.Some? && Truthy(initial.projectId) then
      match FindProject(projects.value, initial.projectId.value)
      case None => selection
      case Some(p) => Some(Choice(p.id, p.projectTitle))
    else selection
  }

  /** The project options: "No Project" with value "", then one option per project, in order. */
  function ProjectOptions(projects: Option<seq<ProjectRef>>): (r: seq<Choice>)
    ensures |r| == 1 + (if projects.Some? then |projects.value| else 0)
    ensures r[0] == Choice("", "No Project")
    ensures projects.Some? ==> forall i :: 0 <= i < |projects.value| ==>
      r[i + 1] == Choice(projects.value[i].id, projects.value[i].projectTitle)
  {
    var items := if projects.Some? then projects.value else [];
    [Choice("", "No Project")] + seq(|items|, i requires 0 <= i < |items| => Choice(items[i].id, items[i].projectTitle))
  }

  /** The tag options: "No Tag" with value "", then one option per tag, in order. */
  function TagOptions(tags: Option<seq<string>>): (r: seq<Choice>)
    ensures |r| == 1 + (if tags.Some? then |tags.value| else 0)
    ensures r[0] == Choice("", "No Tag")
    ensures tags.Some? ==> forall i :: 0 <= i < |tags.value| ==> r[i + 1] == Choice(tags.value[i], tags.value[i])
  {
    var items := if tags.Some? then tags.value else [];
    [Choice("", "No Tag")] + seq(|items|, i requires 0 <= i < |items| => Choice(items[i], items[i]))
  }

  /** `selection?.value || undefined`: no selection and the empty value both become absent. */
  function Normalise(selection: Option<Choice>): (r: Option<string>)
    ensures r.None? <==> selection.None? || selection.value.value == ""
    ensures r.Some? ==> r.value == selection.value.value && r.value != ""
  {
    if selection.Some? && selection.value.value != "" then Some(selection.value.value) else None
  }

  /**
   * `hasChanges`: the title or the notes differ from the entry's, or the normalised project
   * or tag differs from the entry's one read as `value || ""`. An absent value never
   * equals a string, so an absent normalised project or tag always counts as a change.
   */
  predicate HasChanges(newTitle: string, notes: string, projectId: Option<string>, tag: Option<string>, initial: TimeTrack) {
    || newTitle != initial.title
    || projectId != Some(OrElse(initial.projectId, ""))
    || tag != Some(OrElse(initial.tag, ""))
    || notes != OrElse(initial.notes, "")
  }

  /** Leaving an entry without a project (or tag) unselected still reads as a change. */
  lemma NoProjectAlwaysChanged(newTitle: string, notes: string, tag: Option<string>, initial: TimeTrack)
    requires !Truthy(initial.projectId)
    ensures HasChanges(newTitle, notes, Normalise(InitialProjectSelection(initial)), tag, initial)
  {
  }

  lemma NoTagAlwaysChanged(newTitle: string, notes: string, projectId: Option<string>, initial: TimeTrack)
    requires !Truthy(initial.tag)
    ensures HasChanges(newTitle, notes, projectId, Normalise(InitialTagSelection(initial)), initial)
  {
  }

  /**
   * For an entry with a project and a tag, submitting the untouched form (the title and
   * notes it was opened with, the initial selections) is not a change.
   */
  lemma UntouchedFormUnchanged(initial: TimeTrack)
    requires Truthy(initial.projectId) && Truthy(initial.tag)
    ensures !HasChanges(initial.title, OrElse(initial.notes, ""),
      Normalise(InitialProjectSelection(initial)), Normalise(InitialTagSelection(initial)), initial)
  {
  }

  /** The values the form holds: the title and notes inputs and the project id from the form's default values. */
  datatype FormValues = FormValues(newTitle: string, projectId: Option<string>, notes: string)

  /** What `editTimeTrack` is asked to store. */
  datatype EditRequest = EditRequest(id: string, newTitle: string, projectId: Option<string>, tag: Option<string>, notes: string)

  /**
   * What a submit leads to: whether the values passed the schema, the request made (if any),
   * whether the form was reset, and whether `afterSave` ran.
   */
  datatype SubmitOutcome = SubmitOutcome(valid: bool, request: Option<EditRequest>, reset: bool, afterSave: bool)

  /**
   * `handleSubmit(onSubmit)`: invalid values stop at the schema. Valid ones are trimmed;
   * with no change only `afterSave` runs; otherwise the request carries the trimmed title,
   * the normalised selections and the notes, the form resets only when it succeeds, and
   * `afterSave` runs either way.
   */
  function Submit(values: FormValues, projectSelection: Option<Choice>, tagSelection: Option<Choice>,
                  initial: TimeTrack, isObjectId: string -> bool, editOk: bool): (r: SubmitOutcome)
    ensures r.valid <==> ParseUpdate(UpdateInput(values.newTitle, values.projectId, None, Some(values.notes)), isObjectId).Some?
    ensures !r.valid ==> r.request.None? && !r.afterSave && !r.reset
    ensures r.valid ==> r.afterSave
    ensures r.valid ==>
      var projectId, tag := Normalise(projectSelection), Normalise(tagSelection);
      if HasChanges(Trim(values.newTitle), values.notes, projectId, tag, initial) then
        r.request == Some(EditRequest(initial.id, Trim(values.newTitle), projectId, tag, values.notes))
        && r.reset == editOk
      else r.request.None? && !r.reset
  {
    var parsed := ParseUpdate(UpdateInput(values.newTitle, values.projectId, None, Some(values.notes)), isObjectId);
    if parsed.None? then SubmitOutcome(false, None, false, false)
    else
      var newTitle := parsed.value.newTitle;
      var projectId := Normalise(projectSelection);
      var tag := Normalise(tagSelection);
      if !HasChanges(newTitle, values.notes, projectId, tag, initial) then SubmitOutcome(true, None, false, true)
      else SubmitOutcome(true, Some(EditRequest(initial.id, newTitle, projectId, tag, values.notes)), editOk, true)
  }

  /**
   * The schema trims the title before the comparison, so an entry whose stored title has
   * surrounding whitespace always reads as changed, whatever the user typed.
   */
  lemma StoredUntrimmedTitleAlwaysChanges(values: FormValues, projectId: Option<string>, tag: Option<string>, initial: TimeTrack)
    requires Trim(initial.title) != initial.title
    ensures HasChanges(Trim(values.newTitle), values.notes, projectId, tag, initial)
  {
    TrimIdempotent(values.newTitle);
  }
}

=== FILE: event_details.dfy ===
/**
 * The duration shown by the event details modal (`EventDetailsModal.tsx`): an "Xh Ym"
 * label and a whole-minutes count, both computed from the millisecond difference.
 * JavaScript's `Math.floor(a / b)` with `b > 0` is Dafny's `a / b`; its `%` truncates
 * toward zero and is written out as `JsRem`.
 */
module EventDetails {
  import opened Wrappers
  import opened Text
  import opened TimeTracks

  const MsPerHour: int := 1000 * 60 * 60
  const MsPerMinute: int := 1000 * 60

  /** JavaScript's `a % b` for `b > 0`: the remainder takes the sign of `a`. */
  function JsRem(a: int, b: int): (r: int)
    requires b > 0
    ensures a >= 0 ==> 0 <= r < b
    ensures a < 0 ==> -b < r <= 0
    ensures (a - r) % b == 0
  {
    TruncatedRemainder(a, b);
    if a >= 0 then a % b else -((-a) % b)
  }

  /** What the truncating remainder leaves over is a multiple of `b`, for either sign of `a`. */
  lemma TruncatedRemainder(a: int, b: int)
    requires b > 0
    ensures a >= 0 ==> (a - a % b) % b == 0
    ensures a < 0 ==> (a + (-a) % b) % b == 0
  {
    if a >= 0 {
      var q := a / b;
      assert a - a % b == q * b;
      MultipleRem(q, b);
    } else {
      var q := (-a) / b;
      assert a + (-a) % b == (-q) * b;
      MultipleRem(-q, b);
    }
  }

  /** A multiple of `b` leaves no remainder. */
  lemma MultipleRem(q: int, b: int)
    requires b > 0
    ensures (q * b) % b == 0
  {
    var m := q * b;
    var k := q - m / b;
    assert b * k == m % b;
    if k >= 1 {
      assert b * k == b * (k - 1) + b;
    } else if k <= -1 {
      assert b * k == b * (k + 1) - b;
    }
  }

  /** Whole hours, then whole minutes of what is left of the hour. */
  function DurationHours(start: int, end: int): int {
    (end - start) / MsPerHour
  }

  function DurationMinutes(start: int, end: int): int {
    JsRem(end - start, MsPerHour) / MsPerMinute
  }

  /** `formatDuration`: "{h}h {m}m" when there are whole hours, minutes shown even when 0; else "{m}m". */
  function FormatDuration(start: int, end: int): string {
    var h := DurationHours(start, end);
    var m := DurationMinutes(start, end);
    if h > 0 then IntToString(h) + "h " + IntToString(m) + "m" else IntToString(m) + "m"
  }

  /** `getDurationInMinutes`: whole minutes of the difference, rounded down. */
  function DurationInMinutes(start: int, end: int): (r: int)
    ensures r * MsPerMinute <= end - start < (r + 1) * MsPerMinute
  {
    (end - start) / MsPerMinute
  }

  /**
   * For an entry that does not end before it starts, the hours are the whole hours of the
   * difference, the minutes lie in 0..59, and together they give the whole-minutes count.
   */
  lemma DurationDecomposition(start: int, end: int)
    requires start <= end
    ensures var h, m := DurationHours(start, end), DurationMinutes(start, end);
      && h * MsPerHour <= end - start < (h + 1) * MsPerHour
      && 0 <= m <= 59
      && DurationInMinutes(start, end) == h * 60 + m
  {
    var d := end - start;
    var h := d / MsPerHour;
    var rem := d % MsPerHour;
    assert d == h * MsPerHour + rem;
    var m := rem / MsPerMinute;
    assert rem == m * MsPerMinute + rem % MsPerMinute;
    assert d == (h * 60 + m) * MsPerMinute + rem % MsPerMinute;
  }

  /** With whole hours the label always shows the minutes, also when they are 0. */
  lemma LabelWithHours(start: int, end: int)
    requires start <= end && DurationHours(start, end) > 0
    ensures FormatDuration(start, end) ==
      NatToString(DurationHours(start, end)) + "h " + NatToString(DurationMinutes(start, end)) + "m"
  {
    DurationDecomposition(start, end);
  }

  /** Under an hour the label shows minutes only. */
  lemma LabelUnderAnHour(start: int, end: int)
    requires start <= end && DurationHours(start, end) == 0
    ensures FormatDuration(start, end) == NatToString(DurationMinutes(start, end)) + "m"
    ensures DurationMinutes(start, end) == DurationInMinutes(start, end)
  {
    DurationDecomposition(start, end);
  }

  /** Exactly one hour reads "1h 0m" here. */
  lemma OneHourExactly(start: int)
    ensures FormatDuration(start, start + MsPerHour) == "1h 0m"
  {
    assert DurationHours(start, start + MsPerHour) == 1;
    assert DurationMinutes(start, start + MsPerHour) == 0;
  }

  /** What the modal shows for an event: nothing without one, else the label and the minutes. */
  function Details(event: Option<TimeTrack>): (r: Option<(string, int)>)
    ensures r.None? <==> event.None?
    ensures event.Some? ==> r.value.1 * MsPerMinute <= event.value.end - event.value.start
  {
    match event
    case None => None
    case Some(t) => Some((FormatDuration(t.start, t.end), DurationInMinutes(t.start, t.end)))
  }
}

=== FILE: fuzzy_search.dfy ===
/**
 * The search pipeline of `lib/utils/fuzzySearch.ts`: a date-range stage, an exact tag
 * stage and two fuzzy text stages, each narrowing the result of the previous one,
 * and the sorted list of distinct tags offered as tag filters.
 */
module FuzzySearch {
  import opened Wrappers
  import opened Text
  import opened TimeTracks
  import opened Seqs

  /**
   * The filter settings. A date bound is `None` when the caller left it unset or empty
   * (both are falsy in the source); a present bound is the instant it denotes.
   */
  datatype SearchFilters = SearchFilters(
    searchByName: string,
    searchByNotes: string,
    selectedTag: string,
    startDate: Option<int>,
    endDate: Option<int>)

  /** The field a fuzzy stage searches. */
  datatype SearchKey = TitleKey | NotesKey

  /**
   * The approximate matcher (a Fuse.js index built over a collection and queried once).
   * Scoring, threshold and ranking are left open: the only promise is that it returns
   * items of the collection, none more often than it occurs there.
   */
  type Matcher = m: (SearchKey, string, seq<TimeTrack>) -> seq<TimeTrack>
    | forall key, query, xs :: multiset(m(key, query, xs)) <= multiset(xs)
    witness (key: SearchKey, query: string, xs: seq<TimeTrack>) => []

  // ---------------------------------------------------------------------------
  // The stages
  // ---------------------------------------------------------------------------

  /** The per-entry test of the date stage, following which bounds are present. */
  predicate InDateRange(f: SearchFilters, t: TimeTrack) {
    if f.startDate.Some? && f.endDate.Some? then t.start <= f.endDate.value && t.end >= f.startDate.value
    else if f.startDate.Some? then t.end >= f.startDate.value
    else if f.endDate.Some? then t.start <= f.endDate.value
    else true
  }

  /** The date stage runs only when at least one bound is present. */
  function DateStage(xs: seq<TimeTrack>, f: SearchFilters): seq<TimeTrack> {
    if f.startDate.Some? || f.endDate.Some? then Filter(xs, t => InDateRange(f, t)) else xs
  }

  /** The tag stage runs only for a non-empty tag and compares tags exactly. */
  function TagStage(xs: seq<TimeTrack>, selectedTag: string): seq<TimeTrack> {
    if selectedTag != "" then Filter(xs, (t: TimeTrack) => t.tag == Some(selectedTag)) else xs
  }

  /** A fuzzy stage runs only when the query is not blank; the matcher sees the query untrimmed. */
  function FuzzyStage(xs: seq<TimeTrack>, key: SearchKey, query: string, matcher: Matcher): seq<TimeTrack> {
    if Trim(query) != "" then matcher(key, query, xs) else xs
  }

  /**
   * `filterTimeTracks`: date, then tag, then title search, then notes search. Every entry
   * of the result was in the input, no more often than there, and passes both the date
   * test (when a bound is set) and the tag test (when a tag is set): the fuzzy stages only
   * ever choose among what the exact stages let through.
   */
  function FilterTimeTracks(xs: seq<TimeTrack>, f: SearchFilters, matcher: Matcher): (r: seq<TimeTrack>)
    ensures multiset(r) <= multiset(xs)
    ensures forall t :: t in r ==>
      && t in xs
      && InDateRange(f, t)
      && (f.selectedTag != "" ==> t.tag == Some(f.selectedTag))
  {
    var byDate := DateStage(xs, f);
    var byTag := TagStage(byDate, f.selectedTag);
    var byName := FuzzyStage(byTag, TitleKey, f.searchByName, matcher);
    var result := FuzzyStage(byName, NotesKey, f.searchByNotes, matcher);
    DateStageWithin(xs, f);
    TagStageWithin(byDate, f.selectedTag);
    FuzzyStageWithin(byTag, TitleKey, f.searchByName, matcher);
    FuzzyStageWithin(byName, NotesKey, f.searchByNotes, matcher);
    assert multiset(result) <= multiset(xs) by {
      assert multiset(result) <= multiset(byName) <= multiset(byTag) <= multiset(byDate) <= multiset(xs);
    }
    result
  }

  // ---------------------------------------------------------------------------
  // Laws of the pipeline
  // ---------------------------------------------------------------------------

  /** No bounds, no tag and blank searches: the list comes back unchanged. */
  lemma FilterWithoutCriteria(xs: seq<TimeTrack>, f: SearchFilters, matcher: Matcher)
    requires f.startDate.None? && f.endDate.None? && f.selectedTag == ""
    requires IsBlank(f.searchByName) && IsBlank(f.searchByNotes)
    ensures FilterTimeTracks(xs, f, matcher) == xs
  {
  }

  /** With both bounds, an entry is kept exactly when its interval overlaps the range. */
  lemma DateStageBothBounds(xs: seq<TimeTrack>, f: SearchFilters, t: TimeTrack)
    requires f.startDate.Some? && f.endDate.Some?
    ensures t in DateStage(xs, f) <==>
      t in xs && t.start <= f.endDate.value && t.end >= f.startDate.value
  {
  }

  /** With only a start bound, an entry is kept exactly when it ends at or after it. */
  lemma DateStageStartOnly(xs: seq<TimeTrack>, f: SearchFilters, t: TimeTrack)
    requires f.startDate.Some? && f.endDate.None?
    ensures t in DateStage(xs, f) <==> t in xs && t.end >= f.startDate.value
  {
  }

  /** With only an end bound, an entry is kept exactly when it starts at or before it. */
  lemma DateStageEndOnly(xs: seq<TimeTrack>, f: SearchFilters, t: TimeTrack)
    requires f.startDate.None? && f.endDate.Some?
    ensures t in DateStage(xs, f) <==> t in xs && t.start <= f.endDate.value
  {
  }

  /** The date stage keeps the original order and applying it twice equals applying it once. */
  lemma DateStageLaws(xs: seq<TimeTrack>, f: SearchFilters)
    ensures IsSubsequence(DateStage(xs, f), xs)
    ensures DateStage(DateStage(xs, f), f) == DateStage(xs, f)
  {
    var keep := t => InDateRange(f, t);
    if f.startDate.Some? || f.endDate.Some? {
      FilterIsSubsequence(xs, keep);
      FilterIdempotent(xs, keep);
    } else {
      SubsequenceReflexive(xs);
    }
  }

  /** A non-empty tag keeps exactly the entries carrying that tag, each as often as before. */
  lemma TagStageExact(xs: seq<TimeTrack>, tag: string, t: TimeTrack)
    requires tag != ""
    ensures t in TagStage(xs, tag) <==> t in xs && t.tag == Some(tag)
    ensures t.tag == Some(tag) ==> multiset(TagStage(xs, tag))[t] == multiset(xs)[t]
  {
    FilterCount(xs, (u: TimeTrack) => u.tag == Some(tag), t);
  }

  /** The tag stage keeps the original order and is idempotent. */
  lemma TagStageLaws(xs: seq<TimeTrack>, tag: string)
    ensures IsSubsequence(TagStage(xs, tag), xs)
    ensures TagStage(TagStage(xs, tag), tag) == TagStage(xs, tag)
  {
    var keep := (t: TimeTrack) => t.tag == Some(tag);
    if tag != "" {
      FilterIsSubsequence(xs, keep);
      FilterIdempotent(xs, keep);
    } else {
      SubsequenceReflexive(xs);
    }
  }

  lemma {:induction false} SubsequenceReflexive(xs: seq<TimeTrack>)
    ensures IsSubsequence(xs, xs)
  {
    if xs != [] {
      SubsequenceReflexive(xs[1..]);
    }
  }

  /** The date stage keeps a sub-multiset of its input, and only entries in range. */
  lemma DateStageWithin(xs: seq<TimeTrack>, f: SearchFilters)
    ensures multiset(DateStage(xs, f)) <= multiset(xs)
    ensures forall t :: t in DateStage(xs, f) ==> t in xs && InDateRange(f, t)
  {
  }

  /** The tag stage keeps a sub-multiset of its input, and only entries with the tag. */
  lemma TagStageWithin(xs: seq<TimeTrack>, tag: string)
    ensures multiset(TagStage(xs, tag)) <= multiset(xs)
    ensures forall t :: t in TagStage(xs, tag) ==> t in xs && (tag != "" ==> t.tag == Some(tag))
  {
  }

  /** A fuzzy stage keeps a sub-multiset of its input. */
  lemma FuzzyStageWithin(xs: seq<TimeTrack>, key: SearchKey, query: string, matcher: Matcher)
    ensures multiset(FuzzyStage(xs, key, query, matcher)) <= multiset(xs)
    ensures forall t :: t in FuzzyStage(xs, key, query, matcher) ==> t in xs
  {
    var r := FuzzyStage(xs, key, query, matcher);
    forall t | t in r
      ensures t in xs
    {
      assert t in multiset(r);
    }
  }

  /** Without text searches the whole pipeline is idempotent. */
  lemma FilterIdempotentWithoutSearch(xs: seq<TimeTrack>, f: SearchFilters, matcher: Matcher)
    requires IsBlank(f.searchByName) && IsBlank(f.searchByNotes)
    ensures FilterTimeTracks(FilterTimeTracks(xs, f, matcher), f, matcher) == FilterTimeTracks(xs, f, matcher)
  {
    var byDate := DateStage(xs, f);
    var r := TagStage(byDate, f.selectedTag);
    assert FilterTimeTracks(xs, f, matcher) == r;
    DateStageLaws(xs, f);
    TagStageLaws(byDate, f.selectedTag);
    var keep := (t: TimeTrack) => InDateRange(f, t);
    forall i | 0 <= i < |r|
      ensures keep(r[i])
    {
      assert r[i] in FilterTimeTracks(xs, f, matcher);
    }
    if f.startDate.Some? || f.endDate.Some? {
      FilterAllPass(r, keep);
    }
    assert DateStage(r, f) == r;
  }

  /** An empty list stays empty whatever the filters. */
  lemma FilterOfEmpty(f: SearchFilters, matcher: Matcher)
    ensures FilterTimeTracks([], f, matcher) == []
  {
    var r := FilterTimeTracks([], f, matcher);
    assert multiset(r) == multiset{};
    assert |r| == |multiset(r)|;
  }

  // ---------------------------------------------------------------------------
  // Available tags
  // ---------------------------------------------------------------------------

  /** Some entry carries tag `t`. */
  predicate HasTag(xs: seq<TimeTrack>, t: string) {
    exists i :: 0 <= i < |xs| && xs[i].tag == Some(t)
  }

  /** The head of a strictly sorted sequence is below every later element. */
  lemma HeadBelowTail(ts: seq<string>)
    requires StrictlySorted(ts) && ts != []
    ensures forall x :: x in ts[1..] ==> LexLess(ts[0], x)
  {
    forall x | x in ts[1..]
      ensures LexLess(ts[0], x)
    {
      var k :| 0 <= k < |ts[1..]| && ts[1..][k] == x;
      assert ts[k + 1] == x;
    }
  }

  /** Putting an element below all of a sorted sequence in front keeps it sorted. */
  lemma ConsSorted(h: string, ts: seq<string>)
    requires StrictlySorted(ts)
    requires forall x :: x in ts ==> LexLess(h, x)
    ensures StrictlySorted([h] + ts)
  {
    var r := [h] + ts;
    forall i, j | 0 <= i < j < |r|
      ensures LexLess(r[i], r[j])
    {
      if i == 0 {
        assert r[j] == ts[j - 1];
      } else {
        assert r[i] == ts[i - 1] && r[j] == ts[j - 1];
      }
    }
  }

  /** Inserts `t` into a strictly sorted sequence unless it is already there. */
  function InsertSorted(ts: seq<string>, t: string): (r: seq<string>)
    requires StrictlySorted(ts)
    ensures StrictlySorted(r)
    ensures forall x :: x in r <==> x in ts || x == t
    decreases |ts|
  {
    if ts == [] then [t]
    else if t == ts[0] then ts
    else if LexLess(t, ts[0]) then
      HeadBelowTail(ts);
      assert forall x :: x in ts ==> LexLess(t, x) by {
        forall x | x in ts
          ensures LexLess(t, x)
        {
          if x != ts[0] {
            assert x in ts[1..] by { assert ts == [ts[0]] + ts[1..]; }
            LexLessTransitive(t, ts[0], x);
          }
        }
      }
      ConsSorted(t, ts);
      [t] + ts
    else
      LexLessTotal(t, ts[0]);
      HeadBelowTail(ts);
      var rest := InsertSorted(ts[1..], t);
      assert ts == [ts[0]] + ts[1..];
      ConsSorted(ts[0], rest);
      [ts[0]] + rest
  }

  /**
   * `getAvailableTags`: the distinct non-empty tags, ascending. The source collects them
   * in a set and sorts; the model inserts each tag into a sorted list, which yields the
   * same sequence (see `SortedUnique`).
   */
  function GetAvailableTags(xs: seq<TimeTrack>): (r: seq<string>)
    ensures StrictlySorted(r)
    ensures forall t :: t in r <==> t != "" && HasTag(xs, t)
  {
    if xs == [] then []
    else
      var init := xs[..|xs| - 1];
      var last := xs[|xs| - 1];
      var rest := GetAvailableTags(init);
      var r := if Truthy(last.tag) then InsertSorted(rest, last.tag.value) else rest;
      assert forall t :: HasTag(xs, t) <==> HasTag(init, t) || last.tag == Some(t) by {
        forall t | HasTag(xs, t)
          ensures HasTag(init, t) || last.tag == Some(t)
        {
          var i :| 0 <= i < |xs| && xs[i].tag == Some(t);
          if i < |xs| - 1 {
            assert init[i] == xs[i];
          }
        }
        forall t | HasTag(init, t)
          ensures HasTag(xs, t)
        {
          var i :| 0 <= i < |init| && init[i].tag == Some(t);
          assert xs[i] == init[i];
        }
      }
      r
  }

  lemma SameElementsBothEmpty(a: seq<string>, b: seq<string>)
    requires forall x :: x in a <==> x in b
    ensures a == [] <==> b == []
  {
    if a != [] {
      assert a[0] in a;
    }
    if b != [] {
      assert b[0] in b;
    }
  }

  /** Two strictly sorted sequences with the same elements are equal. */
  lemma {:induction false} SortedUnique(a: seq<string>, b: seq<string>)
    requires StrictlySorted(a) && StrictlySorted(b)
    requires forall x :: x in a <==> x in b
    ensures a == b
  {
    SameElementsBothEmpty(a, b);
    if a != [] {
      HeadBelowTail(a);
      HeadBelowTail(b);
      assert a == [a[0]] + a[1..] && b == [b[0]] + b[1..];
      if a[0] != b[0] {
        assert a[0] in b[1..] by { assert a[0] in a; }
        assert b[0] in a[1..] by { assert b[0] in b; }
        LexLessTransitive(a[0], b[0], a[0]);
        LexLessIrreflexive(a[0]);
        assert false;
      }
      forall x
        ensures x in a[1..] <==> x in b[1..]
      {
        if x in a[1..] {
          assert x in a;
          LexLessIrreflexive(x);
        }
        if x in b[1..] {
          assert x in b;
          LexLessIrreflexive(x);
        }
      }
      SortedUnique(a[1..], b[1..]);
    }
  }
}

=== FILE: manual_time_dialog.dfy ===
/**
 * The manual-entry dialog (`ManualTimeDialog.tsx`): the checks a submission goes through
 * in order, the entry it sends, what happens to the inputs afterwards, and the default
 * 09:00 to 17:00 times proposed on opening. A date-time input is modelled by the instant
 * it denotes, `None` while it is empty; "now" and the fate of the request are parameters.
 */
module ManualTimeDialog {
  import opened Wrappers
  import opened Text
  import opened TimeTracks

  const MsPerHour: int := 60 * 60 * 1000
  const MsPerDay: int := 24 * MsPerHour

  /** The dialog's inputs. */
  datatype Form = Form(title: string, description: string, startTime: Option<int>, endTime: Option<int>)

  const EmptyForm: Form := Form("", "", None, None)

  /** Why a submission was refused, in the order the checks run. */
  datatype Rejection = BlankTitle | MissingTime | InFuture | StartNotBeforeEnd

  /** The first check a form fails, or `None` when it passes them all. */
  function Validate(f: Form, now: int): (r: Option<Rejection>)
    ensures r == Some(BlankTitle) <==> IsBlank(f.title)
    ensures r == Some(MissingTime) <==> !IsBlank(f.title) && (f.startTime.None? || f.endTime.None?)
    ensures r == Some(InFuture) <==>
      && !IsBlank(f.title) && f.startTime.Some? && f.endTime.Some?
      && (f.startTime.value > now || f.endTime.value > now)
    ensures r == Some(StartNotBeforeEnd) <==>
      && !IsBlank(f.title) && f.startTime.Some? && f.endTime.Some?
      && f.startTime.value <= now && f.endTime.value <= now && f.startTime.value >= f.endTime.value
    ensures r.None? <==>
      && !IsBlank(f.title) && f.startTime.Some? && f.endTime.Some?
      && f.startTime.value < f.endTime.value <= now
  {
    if Trim(f.title) == "" then Some(BlankTitle)
    else if f.startTime.None? || f.endTime.None? then Some(MissingTime)
    else if f.startTime.value > now || f.endTime.value > now then Some(InFuture)
    else if f.startTime.value >= f.endTime.value then Some(StartNotBeforeEnd)
    else None
  }

  /** What a submission leaves behind: the inputs, the refusal, the entry sent, whether the dialog closed. */
  datatype SubmitResult = SubmitResult(form: Form, rejected: Option<Rejection>, sent: Option<Recording>, closed: bool)

  /**
   * `handleSubmit`: a refused form is left as it is and nothing is sent. Otherwise the
   * entry carries the trimmed title and notes and the project of the page; on success the
   * inputs are emptied and the dialog closes, on failure they are kept for another try.
   */
  function Submit(f: Form, routeProjectId: string, now: int, sendOk: bool): (r: SubmitResult)
    ensures r.rejected == Validate(f, now)
    ensures r.rejected.Some? ==> r.form == f && r.sent.None? && !r.closed
    ensures r.rejected.None? ==>
      && r.sent.Some?
      && r.sent.value.title == Trim(f.title) && r.sent.value.title != ""
      && r.sent.value.notes == Some(Trim(f.description))
      && r.sent.value.projectId == Some(routeProjectId)
      && r.sent.value.start < r.sent.value.end <= now
      && (sendOk ==> r.form == EmptyForm && r.closed)
      && (!sendOk ==> r.form == f && !r.closed)
  {
    var check := Validate(f, now);
    if check.Some? then SubmitResult(f, check, None, false)
    else
      var entry := Recording(
        Trim(f.title), f.startTime.value, f.endTime.value, Some(routeProjectId),
        None, Some(Trim(f.description)), None);
      if sendOk then SubmitResult(EmptyForm, None, Some(entry), true)
      else SubmitResult(f, None, Some(entry), false)
  }

  /** `handleClose`: every input is emptied. */
  function Close(f: Form): (r: Form)
    ensures r.title == "" && r.description == "" && r.startTime.None? && r.endTime.None?
  {
    EmptyForm
  }

  /** Midnight (UTC) of the day holding instant `t`: the date part of `toISOString()`. */
  function UtcDay(t: int): (d: int)
    ensures d <= t < d + MsPerDay
    ensures d % MsPerDay == 0
  {
    (t / MsPerDay) * MsPerDay
  }

  /**
   * The times proposed on opening: 09:00 and 17:00 local time on the selected date's
   * calendar day, or on today's without one. `localOffset` is how far local time is
   * ahead of UTC, since the day is taken in UTC but the times are read as local.
   */
  function OnOpen(f: Form, isOpen: bool, selectedDate: Option<int>, now: int, localOffset: int): (r: Form)
    ensures !isOpen ==> r == f
    ensures isOpen ==> r.title == f.title && r.description == f.description
    ensures isOpen ==>
      var day := UtcDay(selectedDate.GetOr(now));
      && r.startTime == Some(day + 9 * MsPerHour - localOffset)
      && r.endTime == Some(day + 17 * MsPerHour - localOffset)
  {
    if !isOpen then f
    else
      var day := UtcDay(if selectedDate.Some? then selectedDate.value else now);
      f.(startTime := Some(day + 9 * MsPerHour - localOffset), endTime := Some(day + 17 * MsPerHour - localOffset))
  }

  /** The proposed span is eight hours long, so with a title it passes once the day's 17:00 is past. */
  lemma DefaultsAcceptedOncePast(f: Form, selectedDate: Option<int>, openedAt: int, now: int, localOffset: int)
    requires !IsBlank(f.title)
    requires OnOpen(f, true, selectedDate, openedAt, localOffset).endTime.value <= now
    ensures Validate(OnOpen(f, true, selectedDate, openedAt, localOffset), now).None?
    ensures var g := OnOpen(f, true, selectedDate, openedAt, localOffset);
      g.endTime.value - g.startTime.value == 8 * MsPerHour
  {
  }

  /** Any entry the dialog sends lies strictly forward in time and not after the moment of sending. */
  lemma SentEntriesAreOrdered(f: Form, routeProjectId: string, now: int, sendOk: bool)
    ensures var r := Submit(f, routeProjectId, now, sendOk);
      r.sent.Some? ==>
        var e := r.sent.value;
        e.start < e.end <= now && e.trackingType.None? && e.tag.None?
  {
  }
}

=== FILE: pagination.dfy ===
/**
 * The pagination controls (`Pagination.tsx`): "Previous" and "Next" ask for the
 * neighbouring page and are disabled on the first and the last page respectively.
 */
module Pagination {
  import opened Wrappers
  import opened Text

  datatype Button = Previous | Next

  predicate Disabled(b: Button, currentPage: int, totalPages: int) {
    match b
    case Previous => currentPage == 1
    case Next => currentPage == totalPages
  }

  /** The page a button asks for. */
  function Target(b: Button, currentPage: int): int {
    match b
    case Previous => currentPage - 1
    case Next => currentPage + 1
  }

  /** A click: a disabled button does nothing, an enabled one requests its neighbour. */
  function Click(b: Button, currentPage: int, totalPages: int): (r: Option<int>)
    ensures r.None? <==> Disabled(b, currentPage, totalPages)
    ensures r.Some? ==> r.value == currentPage + (if b == Next then 1 else -1)
    ensures 1 <= currentPage <= totalPages && r.Some? ==> 1 <= r.value <= totalPages
  {
    if Disabled(b, currentPage, totalPages) then None else Some(Target(b, currentPage))
  }

  /** The page after a sequence of clicks, each applied when its button is enabled. */
  function Run(currentPage: int, totalPages: int, clicks: seq<Button>): int
    decreases |clicks|
  {
    if clicks == [] then currentPage
    else Run(Click(clicks[0], currentPage, totalPages).GetOr(currentPage), totalPages, clicks[1..])
  }

  /** However the user clicks, a page in range stays in range. */
  lemma {:induction false} RunStaysInRange(currentPage: int, totalPages: int, clicks: seq<Button>)
    requires 1 <= currentPage <= totalPages
    ensures 1 <= Run(currentPage, totalPages, clicks) <= totalPages
    decreases |clicks|
  {
    if clicks != [] {
      var next := Click(clicks[0], currentPage, totalPages).GetOr(currentPage);
      RunStaysInRange(next, totalPages, clicks[1..]);
    }
  }

  /** From page `currentPage`, `k` clicks on "Next" reach page `currentPage + k` when it exists. */
  lemma {:induction false} NextClicksWalkForward(currentPage: int, totalPages: int, k: nat)
    requires 1 <= currentPage && currentPage + k <= totalPages
    ensures Run(currentPage, totalPages, seq(k, _ => Next)) == currentPage + k
    decreases k
  {
    if k > 0 {
      var clicks := seq(k, _ => Next);
      assert clicks[1..] == seq(k - 1, _ => Next);
      NextClicksWalkForward(currentPage + 1, totalPages, k - 1);
    }
  }

  /** "Page {currentPage} of {totalPages}". */
  function PageLabel(currentPage: int, totalPages: int): string {
    "Page " + IntToString(currentPage) + " of " + IntToString(totalPages)
  }

  /** Four space-free words joined by single spaces split back into those words. */
  lemma SplitFourWords(w1: string, w2: string, w3: string, w4: string)
    requires ' ' !in w1 && ' ' !in w2 && ' ' !in w3 && ' ' !in w4
    ensures Split(w1 + [' '] + (w2 + [' '] + (w3 + [' '] + w4)), ' ') == [w1, w2, w3, w4]
  {
    var tail3 := w3 + [' '] + w4;
    var tail2 := w2 + [' '] + tail3;
    assert [w3, w4][1..] == [w4];
    assert Join([w3, w4], ' ') == tail3;
    assert [w2, w3, w4][1..] == [w3, w4];
    assert Join([w2, w3, w4], ' ') == tail2;
    assert [w1, w2, w3, w4][1..] == [w2, w3, w4];
    assert Join([w1, w2, w3, w4], ' ') == w1 + [' '] + tail2;
    SplitJoin([w1, w2, w3, w4], ' ');
  }

  /** The label's words are "Page", the current page, "of" and the page count, which read back. */
  lemma PageLabelReadsBack(currentPage: nat, totalPages: nat)
    ensures Split(PageLabel(currentPage, totalPages), ' ') ==
      ["Page", NatToString(currentPage), "of", NatToString(totalPages)]
    ensures ParseInt(Split(PageLabel(currentPage, totalPages), ' ')[1]) == Some(currentPage)
    ensures ParseInt(Split(PageLabel(currentPage, totalPages), ' ')[3]) == Some(totalPages)
  {
    var a, b := NatToString(currentPage), NatToString(totalPages);
    LabelWords(a, b);
    assert PageLabel(currentPage, totalPages) == "Page " + a + " of " + b;
    NoSpaceInDigits(a);
    NoSpaceInDigits(b);
    SplitFourWords("Page", a, "of", b);
    ParseIntOfDigits(a);
    ParseIntOfDigits(b);
    NatToStringValue(currentPage);
    NatToStringValue(totalPages);
  }

  lemma LabelWords(a: string, b: string)
    ensures "Page " + a + " of " + b == "Page" + [' '] + (a + [' '] + ("of" + [' '] + b))
  {
  }

  lemma NoSpaceInDigits(a: string)
    requires AllDigits(a)
    ensures ' ' !in a
  {
  }
}

=== FILE: project_calendar.dfy ===
/**
 * The calendar of a project (`ProjectCalendar.tsx`): each entry becomes one calendar
 * event, marked manual when its notes contain "[MANUAL]" and system-tracked otherwise.
 */
module ProjectCalendar {
  import opened Wrappers
  import opened Text
  import opened TimeTracks
  import opened Seqs

  const ManualMarker: string := "[MANUAL]"
  /** The memo icon and a space. */
  const ManualPrefix: string := "\U{1F4DD} "
  /** The stopwatch icon, its emoji variation selector, and a space. */
  const SystemPrefix: string := "\U{23F1}\U{FE0F} "

  /** A calendar event and the entry it came from. */
  datatype Event = Event(
    id: string,
    title: string,
    start: int,
    end: int,
    className: string,
    originalTrack: TimeTrack,
    isManual: bool,
    isSystem: bool)

  /** An entry counts as manual when it has notes containing the marker. */
  predicate IsManual(t: TimeTrack) {
    t.notes.Some? && Contains(t.notes.value, ManualMarker)
  }

  function ToEvent(t: TimeTrack): (e: Event)
    ensures e.isManual <==> t.notes.Some? && exists i :: OccursAt(t.notes.value, ManualMarker, i)
    ensures e.isSystem <==> !e.isManual
    ensures e.isManual ==> e.title == ManualPrefix + t.title && e.className == "manual-track"
    ensures !e.isManual ==> e.title == SystemPrefix + t.title && e.className == "system-track"
    ensures e.id == t.id && e.start == t.start && e.end == t.end && e.originalTrack == t
  {
    var manual := IsManual(t);
    ContainsIffOccurs(t.notes.GetOr(""), ManualMarker);
    Event(
      t.id,
      (if manual then ManualPrefix else SystemPrefix) + t.title,
      t.start,
      t.end,
      if manual then "manual-track" else "system-track",
      t,
      manual,
      !manual)
  }

  /** The `events` list: one event per entry, in the same order. */
  function Events(tracks: seq<TimeTrack>): (r: seq<Event>)
    ensures |r| == |tracks|
    ensures forall i :: 0 <= i < |tracks| ==> r[i] == ToEvent(tracks[i])
  {
    seq(|tracks|, i requires 0 <= i < |tracks| => ToEvent(tracks[i]))
  }

  /** Dropping the icon prefix gives back the entry's title. */
  lemma TitleAfterIcon(t: TimeTrack)
    ensures var e := ToEvent(t);
      var prefix := if e.isManual then ManualPrefix else SystemPrefix;
      |prefix| <= |e.title| && e.title[|prefix|..] == t.title
  {
  }

  /** The tracking type plays no part: only the notes decide the classification. */
  lemma ClassificationIgnoresTrackingType(t: TimeTrack, tt: Option<TrackingType>)
    ensures ToEvent(t.(trackingType := tt)).isManual == ToEvent(t).isManual
    ensures ToEvent(t.(trackingType := tt)).title == ToEvent(t).title
  {
  }

  /**
   * In particular an entry created as manual shows as system-tracked unless its notes carry
   * the marker: absent notes, and the empty or marker-free notes the manual-entry dialog sends.
   */
  lemma ManualTypeWithoutMarkerShowsAsSystem(t: TimeTrack)
    requires t.trackingType == Some(Manual) && !IsManual(t)
    ensures ToEvent(t).isSystem && ToEvent(t).className == "system-track"
  {
  }

  /** Every event is either manual or system-tracked, so the two groups add up to all events. */
  lemma ManualAndSystemPartition(tracks: seq<TimeTrack>)
    ensures |Filter(Events(tracks), (e: Event) => e.isManual)| + |Filter(Events(tracks), (e: Event) => e.isSystem)| == |tracks|
  {
    var events := Events(tracks);
    FilterCongruent(events, (e: Event) => e.isSystem, (e: Event) => !e.isManual);
    FilterPartition(events, (e: Event) => e.isManual, (e: Event) => !e.isManual);
  }
}

=== FILE: project_timer.dfy ===
/**
 * The project check-in provider of `store/project-timer-context.tsx`: one optional
 * active timer, mirrored into browser storage under a fixed key after every change,
 * and restored from there when the provider mounts.
 */
module ProjectTimer {
  import opened Wrappers
  import opened TimerCodec

  /** The storage key the provider owns. */
  const StorageKey: string := "project-timer-state"

  /** Browser storage as a key-value map. */
  type Store = map<string, string>

  /** The provider's state and the storage it writes. */
  datatype Provider = Provider(active: Option<ActiveTimer>, store: Store)

  /** What `checkOut` hands back: the timer's fields plus the end time. */
  datatype Snapshot = Snapshot(projectId: string, projectTitle: string, startTime: int, endTime: int)

  /** Storage agrees with the state: the key is present exactly while a timer is active, holding it. */
  predicate Persisted(p: Provider) {
    && (StorageKey in p.store <==> p.active.Some?)
    && (p.active.Some? ==> p.store[StorageKey] == Encode(p.active.value))
  }

  /** Only the provider's own key differs between two stores. */
  ghost predicate OthersUnchanged(before: Store, after: Store) {
    forall k :: k != StorageKey ==> (k in after <==> k in before) && (k in after ==> after[k] == before[k])
  }

  /** The save effect, run after each change of the active timer. */
  function Save(active: Option<ActiveTimer>, store: Store): (r: Store)
    ensures Persisted(Provider(active, r))
    ensures OthersUnchanged(store, r)
  {
    match active
    case Some(t) => store[StorageKey := Encode(t)]
    case None => store - {StorageKey}
  }

  /** `checkIn`: starts a timer at `now`, replacing whatever was active (there is no idle guard). */
  function CheckIn(p: Provider, projectId: string, projectTitle: string, now: int): (r: Provider)
    ensures r.active == Some(ActiveTimer(projectId, projectTitle, now))
    ensures Persisted(r) && OthersUnchanged(p.store, r.store)
  {
    var t := Some(ActiveTimer(projectId, projectTitle, now));
    Provider(t, Save(t, p.store))
  }

  /**
   * `checkOut`: from idle, nothing happens and there is no snapshot; otherwise the snapshot
   * carries the active timer's fields with `endTime = now` and the provider becomes idle.
   */
  function CheckOut(p: Provider, now: int): (r: (Provider, Option<Snapshot>))
    ensures p.active.None? ==> r.1.None? && r.0 == p
    ensures p.active.Some? ==>
      && r.1 == Some(Snapshot(p.active.value.projectId, p.active.value.projectTitle, p.active.value.startTime, now))
      && r.0.active.None?
      && Persisted(r.0) && OthersUnchanged(p.store, r.0.store)
  {
    match p.active
    case None => (p, None)
    case Some(t) => (Provider(None, Save(None, p.store)), Some(Snapshot(t.projectId, t.projectTitle, t.startTime, now)))
  }

  /** `isCheckedIn`: a timer is active and belongs to `projectId`. */
  predicate IsCheckedIn(active: Option<ActiveTimer>, projectId: string) {
    active.Some? && active.value.projectId == projectId
  }

  /** After a check-in, exactly the checked-in project reports as checked in. */
  lemma IsCheckedInAfterCheckIn(p: Provider, projectId: string, projectTitle: string, now: int, q: string)
    ensures IsCheckedIn(CheckIn(p, projectId, projectTitle, now).active, q) <==> q == projectId
  {
  }

  /** After a check-out, and whenever idle, no project reports as checked in. */
  lemma NotCheckedInAfterCheckOut(p: Provider, now: int, q: string)
    ensures !IsCheckedIn(CheckOut(p, now).0.active, q)
    ensures p.active.None? ==> !IsCheckedIn(p.active, q)
  {
  }

  /**
   * The load effect: an absent or empty stored value leaves the provider idle; a value that
   * does not parse is removed and the provider stays idle; otherwise the parsed value is adopted.
   */
  function Load(store: Store): (r: Provider)
    ensures r.active.Some? ==> StorageKey in store && Decode(store[StorageKey]) == Some(r.active)
    ensures r.store == store || (r.store == store - {StorageKey} && r.active.None?)
    ensures OthersUnchanged(store, r.store)
    ensures StorageKey in store && store[StorageKey] != "" && Decode(store[StorageKey]).Some? ==>
      r == Provider(Decode(store[StorageKey]).value, store)
  {
    if StorageKey !in store || store[StorageKey] == "" then Provider(None, store)
    else
      match Decode(store[StorageKey])
      case None => Provider(None, store - {StorageKey})
      case Some(v) => Provider(v, store)
  }

  /**
   * Mounting the provider: the load effect, then the save effect for whatever state
   * it established (the initial idle save removes the key before the loaded state is saved).
   */
  function Mount(store: Store): (r: Provider)
    ensures Persisted(r) && OthersUnchanged(store, r.store)
  {
    var loaded := Load(store);
    Provider(loaded.active, Save(loaded.active, loaded.store - {StorageKey}))
  }

  /** Without a stored value, or with an empty one, the provider starts idle and storage is untouched. */
  lemma LoadAbsent(store: Store)
    requires StorageKey !in store || store[StorageKey] == ""
    ensures Load(store) == Provider(None, store)
  {
  }

  /** An unparseable stored value is discarded: the key is removed and the provider is idle. */
  lemma LoadCorrupt(store: Store)
    requires StorageKey in store && store[StorageKey] != "" && Decode(store[StorageKey]).None?
    ensures Load(store).active.None?
    ensures StorageKey !in Load(store).store && OthersUnchanged(store, Load(store).store)
  {
  }

  /** Reloading after a save restores the identical timer, or idleness after a check-out. */
  lemma ReloadAfterSave(active: Option<ActiveTimer>, store: Store)
    ensures Load(Save(active, store)).active == active
    ensures Mount(Save(active, store)) == Provider(active, Save(active, store))
  {
    if active.Some? {
      DecodeEncode(active.value);
      assert Encode(active.value) != "";
    }
  }

  /** Whatever the provider persisted by a check-in survives a reload. */
  lemma CheckInSurvivesReload(p: Provider, projectId: string, projectTitle: string, now: int)
    ensures Load(CheckIn(p, projectId, projectTitle, now).store).active
      == Some(ActiveTimer(projectId, projectTitle, now))
  {
    var t := Some(ActiveTimer(projectId, projectTitle, now));
    ReloadAfterSave(t, p.store);
  }
}

=== FILE: seqs.dfy ===
/** Order-preserving selection over sequences: `Array.prototype.filter` and its laws. */
module Seqs {

  /** `a` can be obtained from `b` by deleting elements, keeping the order of the rest. */
  predicate IsSubsequence<T(==)>(a: seq<T>, b: seq<T>)
    decreases |b|
  {
    if a == [] then true
    else if b == [] then false
    else (a[0] == b[0] && IsSubsequence(a[1..], b[1..])) || IsSubsequence(a, b[1..])
  }

  /** `xs.filter(keep)`: the elements satisfying `keep`, in their original order. */
  function Filter<T(!new)>(xs: seq<T>, keep: T -> bool): (r: seq<T>)
    ensures forall x :: x in r <==> x in xs && keep(x)
    ensures multiset(r) <= multiset(xs)
    ensures |r| <= |xs|
  {
    if xs == [] then []
    else
      var rest := Filter(xs[1..], keep);
      assert xs == [xs[0]] + xs[1..];
      if keep(xs[0]) then [xs[0]] + rest else rest
  }

  /** The filtered sequence is a subsequence of the original. */
  lemma {:induction false} FilterIsSubsequence<T(!new)>(xs: seq<T>, keep: T -> bool)
    ensures IsSubsequence(Filter(xs, keep), xs)
  {
    if xs != [] {
      FilterIsSubsequence(xs[1..], keep);
      var rest := Filter(xs[1..], keep);
      if keep(xs[0]) {
        assert ([xs[0]] + rest)[1..] == rest;
      } else if rest != [] {
        assert IsSubsequence(rest, xs[1..]);
      }
    }
  }

  /** Filtering again with the same predicate changes nothing. */
  lemma {:induction false} FilterIdempotent<T(!new)>(xs: seq<T>, keep: T -> bool)
    ensures Filter(Filter(xs, keep), keep) == Filter(xs, keep)
  {
    if xs != [] {
      FilterIdempotent(xs[1..], keep);
      var rest := Filter(xs[1..], keep);
      if keep(xs[0]) {
        assert ([xs[0]] + rest)[1..] == rest;
      }
    }
  }

  /** When every element passes, the filter returns its input. */
  lemma {:induction false} FilterAllPass<T(!new)>(xs: seq<T>, keep: T -> bool)
    requires forall i :: 0 <= i < |xs| ==> keep(xs[i])
    ensures Filter(xs, keep) == xs
  {
    if xs != [] {
      FilterAllPass(xs[1..], keep);
      assert xs == [xs[0]] + xs[1..];
    }
  }

  /** An element's multiplicity survives the filter when it passes and drops to zero otherwise. */
  lemma {:induction false} FilterCount<T(!new)>(xs: seq<T>, keep: T -> bool, x: T)
    ensures multiset(Filter(xs, keep))[x] == if keep(x) then multiset(xs)[x] else 0
  {
    if xs != [] {
      FilterCount(xs[1..], keep, x);
      var rest := Filter(xs[1..], keep);
      assert xs == [xs[0]] + xs[1..];
      assert multiset(xs) == multiset{xs[0]} + multiset(xs[1..]);
      if keep(xs[0]) {
        assert multiset(Filter(xs, keep)) == multiset{xs[0]} + multiset(rest);
      } else {
        assert Filter(xs, keep) == rest;
      }
    }
  }

  /** Two complementary filters split a sequence: every element lands in exactly one of them. */
  lemma {:induction false} FilterPartition<T(!new)>(xs: seq<T>, keep: T -> bool, drop: T -> bool)
    requires forall x :: drop(x) == !keep(x)
    ensures |Filter(xs, keep)| + |Filter(xs, drop)| == |xs|
  {
    if xs != [] {
      FilterPartition(xs[1..], keep, drop);
    }
  }

  /** Filters that agree on every element of the sequence select the same elements. */
  lemma {:induction false} FilterCongruent<T(!new)>(xs: seq<T>, f: T -> bool, g: T -> bool)
    requires forall i :: 0 <= i < |xs| ==> f(xs[i]) == g(xs[i])
    ensures Filter(xs, f) == Filter(xs, g)
  {
    if xs != [] {
      FilterCongruent(xs[1..], f, g);
    }
  }
}

=== FILE: text.dfy ===
/**
 * The handful of JavaScript string operations the components rely on:
 * `trim`, `parseInt(_, 10)`, `Number.prototype.toString`, `padStart(2, "0")`,
 * `includes`, `split` and the default string ordering used by `Array.prototype.sort`.
 * Strings are sequences of characters; one character stands for one code unit.
 */
module Text {
  import opened Wrappers

  // ---------------------------------------------------------------------------
  // Whitespace and trimming
  // ---------------------------------------------------------------------------

  /** The WhiteSpace and LineTerminator code points that `String.prototype.trim` removes. */
  predicate IsWhitespace(c: char) {
    || c == '\t' || c == '\n' || c == '\U{000B}' || c == '\U{000C}' || c == '\r'
    || c == ' ' || c == '\U{00A0}' || c == '\U{1680}'
    || ('\U{2000}' <= c <= '\U{200A}')
    || c == '\U{2028}' || c == '\U{2029}' || c == '\U{202F}' || c == '\U{205F}'
    || c == '\U{3000}' || c == '\U{FEFF}'
  }

  /** Every character is whitespace (the empty string included). */
  predicate IsBlank(s: string) {
    forall i :: 0 <= i < |s| ==> IsWhitespace(s[i])
  }

  /** `s.trimStart()`: the suffix left after dropping leading whitespace. */
  function TrimStart(s: string): (r: string)
    ensures |r| <= |s| && r == s[|s| - |r|..]
    ensures IsBlank(s[..|s| - |r|])
    ensures r == [] || !IsWhitespace(r[0])
  {
    if s == [] || !IsWhitespace(s[0]) then s
    else
      var r := TrimStart(s[1..]);
      assert s[..|s| - |r|] == [s[0]] + s[1..][..|s| - 1 - |r|];
      r
  }

  /** `s.trimEnd()`: the prefix left after dropping trailing whitespace. */
  function TrimEnd(s: string): (r: string)
    ensures |r| <= |s| && r == s[..|r|]
    ensures IsBlank(s[|r|..])
    ensures r == [] || !IsWhitespace(r[|r| - 1])
  {
    if s == [] || !IsWhitespace(s[|s| - 1]) then s
    else
      var r := TrimEnd(s[..|s| - 1]);
      assert s[|r|..] == s[..|s| - 1][|r|..] + [s[|s| - 1]];
      r
  }

  /** `s.trim()`: the infix of `s` between its leading and trailing whitespace. */
  function Trim(s: string): (r: string)
    ensures r == [] <==> IsBlank(s)
    ensures r == [] || (!IsWhitespace(r[0]) && !IsWhitespace(r[|r| - 1]))
    ensures |r| <= |s|
  {
    var t := TrimStart(s);
    TrimStartEmpty(s);
    TrimEndEmpty(t);
    var r := TrimEnd(t);
    assert r != [] ==> r[0] == t[0];
    r
  }

  /** Only a blank string trims at the start to nothing. */
  lemma TrimStartEmpty(s: string)
    ensures TrimStart(s) == [] <==> IsBlank(s)
  {
    var t := TrimStart(s);
    if t != [] {
      assert s[|s| - |t|] == t[0];
    } else {
      assert s == s[..|s|];
    }
  }

  /** A string that starts with a non-whitespace character keeps something at the end. */
  lemma TrimEndEmpty(t: string)
    requires t == [] || !IsWhitespace(t[0])
    ensures TrimEnd(t) == [] <==> t == []
  {
  }

  /** The trimmed string is the part of `s` between a blank prefix and a blank suffix. */
  lemma TrimIsInfix(s: string)
    ensures exists i, j :: 0 <= i <= j <= |s| && Trim(s) == s[i..j] && IsBlank(s[..i]) && IsBlank(s[j..])
  {
    var t := TrimStart(s);
    var r := TrimEnd(t);
    var i := |s| - |t|;
    var j := i + |r|;
    assert t == s[i..];
    assert s[i..j] == t[..|r|] == r;
    assert s[j..] == t[|r|..];
    assert Trim(s) == r;
  }

  /** Trimming a string that already has no surrounding whitespace leaves it alone. */
  lemma TrimOfTrimmed(s: string)
    requires s == [] || (!IsWhitespace(s[0]) && !IsWhitespace(s[|s| - 1]))
    ensures Trim(s) == s
  {
  }

  /** Trimming is idempotent, so a trimmed title survives a second trim. */
  lemma TrimIdempotent(s: string)
    ensures Trim(Trim(s)) == Trim(s)
  {
    TrimOfTrimmed(Trim(s));
  }

  // ---------------------------------------------------------------------------
  // Decimal digits: `toString()` and `parseInt(_, 10)`
  // ---------------------------------------------------------------------------

  predicate IsDigit(c: char) {
    '0' <= c <= '9'
  }

  predicate AllDigits(s: string) {
    forall i :: 0 <= i < |s| ==> IsDigit(s[i])
  }

  function DigitChar(d: nat): (c: char)
    requires d < 10
    ensures IsDigit(c)
  {
    (('0' as int) + d) as char
  }

  function DigitValue(c: char): (d: nat)
    requires IsDigit(c)
    ensures d < 10
  {
    (c as int) - ('0' as int)
  }

  /** The number a string of decimal digits denotes, read most significant digit first. */
  function DigitsValue(s: string): nat
    requires AllDigits(s)
  {
    if s == [] then 0 else DigitsValue(s[..|s| - 1]) * 10 + DigitValue(s[|s| - 1])
  }

  /** `n.toString()` for a non-negative integer: shortest decimal digits, no leading zero. */
  function NatToString(n: nat): (r: string)
    ensures |r| >= 1 && AllDigits(r)
    ensures |r| > 1 ==> r[0] != '0'
  {
    if n < 10 then [DigitChar(n)] else NatToString(n / 10) + [DigitChar(n % 10)]
  }

  /** `i.toString()` for any integer: a minus sign before the digits of the magnitude. */
  function IntToString(i: int): (r: string)
    ensures |r| >= 1
  {
    if i < 0 then "-" + NatToString(-i) else NatToString(i)
  }

  /** Reading back the digits `toString` printed gives the number printed. */
  lemma {:induction false} NatToStringValue(n: nat)
    ensures DigitsValue(NatToString(n)) == n
  {
    if n >= 10 {
      NatToStringValue(n / 10);
      var r := NatToString(n);
      assert r[..|r| - 1] == NatToString(n / 10);
    }
  }

  /** `toString` is injective on non-negative integers. */
  lemma NatToStringInjective(a: nat, b: nat)
    requires NatToString(a) == NatToString(b)
    ensures a == b
  {
    NatToStringValue(a);
    NatToStringValue(b);
  }

  predicate AllZeros(s: string) {
    forall i :: 0 <= i < |s| ==> s[i] == '0'
  }

  /** Leading zeros do not change the value of a digit string. */
  lemma {:induction false} LeadingZerosValue(z: string, s: string)
    requires AllZeros(z) && AllDigits(s)
    ensures AllDigits(z + s)
    ensures DigitsValue(z + s) == DigitsValue(s)
  {
    if s == [] {
      assert z + s == z;
      ZerosValue(z);
    } else {
      var s' := s[..|s| - 1];
      assert (z + s)[..|z + s| - 1] == z + s';
      LeadingZerosValue(z, s');
    }
  }

  lemma {:induction false} ZerosValue(z: string)
    requires AllZeros(z)
    ensures AllDigits(z) && DigitsValue(z) == 0
  {
    if z != [] {
      ZerosValue(z[..|z| - 1]);
    }
  }

  /** The longest prefix of `s` made of decimal digits. */
  function LeadingDigits(s: string): (r: string)
    ensures |r| <= |s| && r == s[..|r|] && AllDigits(r)
    ensures |r| == |s| || !IsDigit(s[|r|])
  {
    if s == [] || !IsDigit(s[0]) then []
    else [s[0]] + LeadingDigits(s[1..])
  }

  /**
   * `parseInt(s, 10)`: skip leading whitespace, accept one optional sign, then read the
   * longest run of digits; `None` plays the part of `NaN` when there is no digit.
   */
  function ParseInt(s: string): (r: Option<int>)
  {
    var t := TrimStart(s);
    var negative := t != [] && t[0] == '-';
    var body := if t != [] && (t[0] == '-' || t[0] == '+') then t[1..] else t;
    var digits := LeadingDigits(body);
    var magnitude: int := if digits == [] then 0 else DigitsValue(digits);
    if digits == [] then None
    else if negative then Some(-magnitude)
    else Some(magnitude)
  }

  /** `parseInt` reads a whole string of digits as its value. */
  lemma ParseIntOfDigits(s: string)
    requires s != [] && AllDigits(s)
    ensures ParseInt(s) == Some(DigitsValue(s))
  {
    DigitNotWhitespace(s[0]);
    assert TrimStart(s) == s;
    assert s[0] != '-' && s[0] != '+';
    LeadingDigitsOfDigits(s);
  }

  lemma DigitNotWhitespace(c: char)
    requires IsDigit(c)
    ensures !IsWhitespace(c)
  {
  }

  lemma {:induction false} LeadingDigitsOfDigits(s: string)
    requires AllDigits(s)
    ensures LeadingDigits(s) == s
  {
    if s != [] {
      assert IsDigit(s[0]);
      LeadingDigitsOfDigits(s[1..]);
    }
  }

  // ---------------------------------------------------------------------------
  // Padding
  // ---------------------------------------------------------------------------

  /** `s.padStart(2, "0")`: left-pad with zeros to at least two characters. */
  function PadStart2(s: string): (r: string)
    ensures |r| == if |s| < 2 then 2 else |s|
    ensures r[|r| - |s|..] == s
    ensures AllZeros(r[..|r| - |s|])
  {
    if |s| >= 2 then s else seq(2 - |s|, _ => '0') + s
  }

  /** A padded number reads back, through `parseInt`, as the number itself. */
  lemma ParsePaddedNat(n: nat)
    ensures ParseInt(PadStart2(NatToString(n))) == Some(n)
  {
    var s := NatToString(n);
    var r := PadStart2(s);
    var z := r[..|r| - |s|];
    assert r == z + s;
    LeadingZerosValue(z, s);
    NatToStringValue(n);
    ParseIntOfDigits(r);
  }

  // ---------------------------------------------------------------------------
  // Substrings: `includes`
  // ---------------------------------------------------------------------------

  /** `sub` occurs in `s` starting at position `i`. */
  predicate OccursAt(s: string, sub: string, i: int) {
    0 <= i && i + |sub| <= |s| && s[i..i + |sub|] == sub
  }

  /** `s.includes(sub)`, scanning from the left. */
  predicate Contains(s: string, sub: string)
    decreases |s|
  {
    (|sub| <= |s| && s[..|sub|] == sub) || (s != [] && Contains(s[1..], sub))
  }

  /** An occurrence at position `i` is found by the left-to-right scan. */
  lemma {:induction false} OccursAtContains(s: string, sub: string, i: int)
    requires OccursAt(s, sub, i)
    ensures Contains(s, sub)
    decreases i
  {
    if i > 0 {
      assert s[1..][i - 1..i - 1 + |sub|] == s[i..i + |sub|];
      OccursAtContains(s[1..], sub, i - 1);
    }
  }

  /** `Contains` holds exactly when `sub` occurs at some position of `s`. */
  lemma {:induction false} ContainsIffOccurs(s: string, sub: string)
    ensures Contains(s, sub) <==> exists i :: OccursAt(s, sub, i)
    decreases |s|
  {
    if |sub| <= |s| && s[..|sub|] == sub {
      assert OccursAt(s, sub, 0);
    } else if s != [] && Contains(s[1..], sub) {
      ContainsIffOccurs(s[1..], sub);
      var i :| OccursAt(s[1..], sub, i);
      assert s[i + 1..i + 1 + |sub|] == s[1..][i..i + |sub|];
      assert OccursAt(s, sub, i + 1);
    }
    forall i | OccursAt(s, sub, i)
      ensures Contains(s, sub)
    {
      OccursAtContains(s, sub, i);
    }
  }

  // ---------------------------------------------------------------------------
  // Splitting on a separator character: `split(":")`
  // ---------------------------------------------------------------------------

  /** Position of the first occurrence of `c` in `s`. */
  function IndexOf(s: string, c: char): (i: nat)
    requires c in s
    ensures i < |s| && s[i] == c && c !in s[..i]
  {
    if s[0] == c then 0
    else
      var i := IndexOf(s[1..], c);
      assert s[..i + 1] == [s[0]] + s[1..][..i];
      i + 1
  }

  /** Glues parts back together with the separator between consecutive parts. */
  function Join(parts: seq<string>, sep: char): string
    requires |parts| >= 1
  {
    if |parts| == 1 then parts[0] else parts[0] + [sep] + Join(parts[1..], sep)
  }

  /** `s.split(sep)` for a one-character separator: the maximal separator-free pieces. */
  function Split(s: string, sep: char): (parts: seq<string>)
    ensures |parts| >= 1
    ensures forall k :: 0 <= k < |parts| ==> sep !in parts[k]
    ensures Join(parts, sep) == s
    decreases |s|
  {
    if sep !in s then [s]
    else
      var i := IndexOf(s, sep);
      var rest := Split(s[i + 1..], sep);
      assert s == s[..i] + [sep] + s[i + 1..];
      [s[..i]] + rest
  }

  /** Splitting undoes joining separator-free parts: the two are inverse. */
  lemma {:induction false} SplitJoin(parts: seq<string>, sep: char)
    requires |parts| >= 1
    requires forall k :: 0 <= k < |parts| ==> sep !in parts[k]
    ensures Split(Join(parts, sep), sep) == parts
  {
    if |parts| > 1 {
      var s := Join(parts, sep);
      var tail := Join(parts[1..], sep);
      assert s == parts[0] + [sep] + tail;
      assert sep in s by { assert s[|parts[0]|] == sep; }
      var i := IndexOf(s, sep);
      assert s[..|parts[0]|] == parts[0];
      assert i == |parts[0]|;
      assert s[..i] == parts[0];
      assert s[i + 1..] == tail;
      SplitJoin(parts[1..], sep);
      assert Split(s, sep) == [parts[0]] + parts[1..];
    }
  }

  /** A leading separator-free piece becomes the first part; the rest splits on its own. */
  lemma SplitCons(a: string, sep: char, rest: string)
    requires sep !in a
    ensures Split(a + [sep] + rest, sep) == [a] + Split(rest, sep)
  {
    var s := a + [sep] + rest;
    assert s[|a|] == sep;
    var i := IndexOf(s, sep);
    assert s[..|a|] == a;
    assert i == |a|;
    assert s[i + 1..] == rest;
  }

  // ---------------------------------------------------------------------------
  // Ordering: the default comparison of `Array.prototype.sort` on strings
  // ---------------------------------------------------------------------------

  /** Lexicographic order by character code; a proper prefix comes first. */
  predicate LexLess(a: string, b: string) {
    if a == [] then b != []
    else if b == [] then false
    else a[0] < b[0] || (a[0] == b[0] && LexLess(a[1..], b[1..]))
  }

  lemma LexLessIrreflexive(a: string)
    ensures !LexLess(a, a)
  {
  }

  lemma {:induction false} LexLessTransitive(a: string, b: string, c: string)
    requires LexLess(a, b) && LexLess(b, c)
    ensures LexLess(a, c)
  {
    if a != [] && b != [] && c != [] && a[0] == b[0] && b[0] == c[0] {
      LexLessTransitive(a[1..], b[1..], c[1..]);
    }
  }

  lemma {:induction false} LexLessTotal(a: string, b: string)
    requires a != b
    ensures LexLess(a, b) || LexLess(b, a)
  {
    if a != [] && b != [] && a[0] == b[0] {
      assert a == [a[0]] + a[1..] && b == [b[0]] + b[1..];
      LexLessTotal(a[1..], b[1..]);
    }
  }

  /** Strictly ascending: sorted and free of duplicates. */
  predicate StrictlySorted(ts: seq<string>) {
    forall i, j :: 0 <= i < j < |ts| ==> LexLess(ts[i], ts[j])
  }
}

=== FILE: time_track_schema.dfy ===
/**
 * The validation schemas of `lib/validations/time-track.ts` as predicates and parsers:
 * a parse either fails or yields the validated value with its title trimmed. The
 * ObjectId check (`objectIdValidation`, `ObjectId.isValid`) is defined outside the
 * model and is a parameter here.
 */
module TimeTrackSchema {
  import opened Wrappers
  import opened Text

  const MaxTitleLength: int := 128
  const MaxNotesLength: int := 1000

  /** A title passes when, trimmed, it has between 1 and 128 characters. */
  predicate ValidTitle(title: string) {
    1 <= |Trim(title)| <= MaxTitleLength
  }

  predicate ValidNotes(notes: Option<string>) {
    notes.None? || |notes.value| <= MaxNotesLength
  }

  /** The two tracking types the schema accepts, by their wire names. */
  predicate ValidTrackingType(t: Option<string>) {
    t.None? || t.value == "manual" || t.value == "system_tracked"
  }

  /** The input of `timeTrackSchema`; dates are already instants. */
  datatype TrackInput = TrackInput(
    title: string,
    start: int,
    end: int,
    projectId: Option<string>,
    tag: Option<string>,
    notes: Option<string>,
    trackingType: Option<string>)

  /** `timeTrackSchema.safeParse`: the input with its title trimmed, or `None` when a field fails. */
  function ParseTrack(x: TrackInput, isObjectId: string -> bool): (r: Option<TrackInput>)
    ensures r.Some? <==>
      && ValidTitle(x.title) && ValidNotes(x.notes) && ValidTrackingType(x.trackingType)
      && (x.projectId.None? || isObjectId(x.projectId.value))
    ensures r.Some? ==> r.value == x.(title := Trim(x.title))
  {
    if ValidTitle(x.title) && ValidNotes(x.notes) && ValidTrackingType(x.trackingType)
      && (x.projectId.None? || isObjectId(x.projectId.value))
    then Some(x.(title := Trim(x.title)))
    else None
  }

  /**
   * No rule relates `start` and `end`: whether an input passes does not depend on its
   * dates, so an entry ending before it starts is accepted like any other.
   */
  lemma DatesUnconstrained(x: TrackInput, start: int, end: int, isObjectId: string -> bool)
    ensures ParseTrack(x.(start := start, end := end), isObjectId).Some? <==> ParseTrack(x, isObjectId).Some?
  {
  }

  /** A parsed value parses again to itself: trimming twice is trimming once. */
  lemma ParseTrackIdempotent(x: TrackInput, isObjectId: string -> bool)
    ensures ParseTrack(x, isObjectId).Some? ==>
      ParseTrack(ParseTrack(x, isObjectId).value, isObjectId) == ParseTrack(x, isObjectId)
  {
    if ParseTrack(x, isObjectId).Some? {
      var y := x.(title := Trim(x.title));
      TrimmedTitleValid(x.title);
      assert y.(title := Trim(y.title)) == y;
    }
  }

  /** A valid title stays valid, and unchanged, when trimmed again. */
  lemma TrimmedTitleValid(title: string)
    ensures ValidTitle(title) ==> Trim(Trim(title)) == Trim(title) && ValidTitle(Trim(title))
  {
    TrimIdempotent(title);
  }

  /** The input of `timeTrackUpdateSchema`. */
  datatype UpdateInput = UpdateInput(
    newTitle: string,
    projectId: Option<string>,
    tag: Option<string>,
    notes: Option<string>)

  /** An update's project passes when it is absent, empty, or a valid ObjectId. */
  predicate ValidUpdateProjectId(projectId: Option<string>, isObjectId: string -> bool) {
    projectId.None? || projectId.value == "" || isObjectId(projectId.value)
  }

  /** `timeTrackUpdateSchema.safeParse`: the same title rule, applied to `newTitle`. */
  function ParseUpdate(x: UpdateInput, isObjectId: string -> bool): (r: Option<UpdateInput>)
    ensures r.Some? <==>
      ValidTitle(x.newTitle) && ValidNotes(x.notes) && ValidUpdateProjectId(x.projectId, isObjectId)
    ensures r.Some? ==> r.value == x.(newTitle := Trim(x.newTitle))
  {
    if ValidTitle(x.newTitle) && ValidNotes(x.notes) && ValidUpdateProjectId(x.projectId, isObjectId)
    then Some(x.(newTitle := Trim(x.newTitle)))
    else None
  }

  /**
   * Both schemas judge a title alike: renaming to `t` passes exactly when creating
   * with title `t` would, and leaves the same trimmed title.
   */
  lemma SameTitleRule(t: string, isObjectId: string -> bool)
    ensures ParseUpdate(UpdateInput(t, None, None, None), isObjectId).Some? <==>
            ParseTrack(TrackInput(t, 0, 0, None, None, None, None), isObjectId).Some?
    ensures ParseUpdate(UpdateInput(t, None, None, None), isObjectId).Some? ==>
      ParseUpdate(UpdateInput(t, None, None, None), isObjectId).value.newTitle ==
      ParseTrack(TrackInput(t, 0, 0, None, None, None, None), isObjectId).value.title
  {
  }

  /** A title of only whitespace fails, however long it is. */
  lemma BlankTitleRejected(t: string)
    requires IsBlank(t)
    ensures !ValidTitle(t)
  {
  }
}

=== FILE: time_tracks.dfy ===
/**
 * The time-entry records the components exchange. Timestamps are whole milliseconds
 * since the epoch; optional fields are `Option`s, where `None` is JavaScript's `undefined`.
 */
module TimeTracks {
  import opened Wrappers

  /** The `trackingType` enumeration of a time entry. */
  datatype TrackingType = Manual | SystemTracked

  /** A persisted time entry as the components receive it (`ITimeTrack`). */
  datatype TimeTrack = TimeTrack(
    id: string,
    title: string,
    start: int,
    end: int,
    projectId: Option<string>,
    tag: Option<string>,
    notes: Option<string>,
    trackingType: Option<TrackingType>)

  /** The payload handed to the create-entry service (`TimeTrackRecording`). */
  datatype Recording = Recording(
    title: string,
    start: int,
    end: int,
    projectId: Option<string>,
    tag: Option<string>,
    notes: Option<string>,
    trackingType: Option<TrackingType>)

  /** JavaScript truthiness of an optional string: present and non-empty. */
  predicate Truthy(s: Option<string>) {
    s.Some? && s.value != ""
  }

  /** `s || fallback` for an optional string. */
  function OrElse(s: Option<string>, fallback: string): (r: string)
    ensures Truthy(s) ==> r == s.value
    ensures !Truthy(s) ==> r == fallback
  {
    if Truthy(s) then s.value else fallback
  }
}

=== FILE: timer_codec.dfy ===
/**
 * The textual form of the active timer in browser storage. The source writes it with
 * `JSON.stringify` and reads it back with `JSON.parse`; the model fixes the one object
 * shape the provider writes (three members in a fixed order, strings escaped) plus the
 * literal `null`, and treats every other text as unparseable.
 */
module TimerCodec {
  import opened Wrappers
  import opened Text

  /** The single active check-in: which project, its display name, when it started. */
  datatype ActiveTimer = ActiveTimer(projectId: string, projectTitle: string, startTime: int)

  /** Backslash-escapes quotes and backslashes, as a JSON string body requires. */
  function Escape(s: string): (r: string)
    ensures |r| >= |s|
  {
    if s == [] then []
    else (if s[0] == '"' || s[0] == '\\' then ['\\', s[0]] else [s[0]]) + Escape(s[1..])
  }

  /**
   * Reads a JSON string body up to and including its closing quote, undoing the escapes;
   * returns the text read and whatever follows the quote.
   */
  function Unescape(s: string): Option<(string, string)>
    decreases |s|
  {
    if s == [] then None
    else if s[0] == '"' then Some(([], s[1..]))
    else if s[0] == '\\' then
      if |s| >= 2 && (s[1] == '"' || s[1] == '\\') then
        match Unescape(s[2..])
        case None => None
        case Some(p) => Some(([s[1]] + p.0, p.1))
      else None
    else
      match Unescape(s[1..])
      case None => None
      case Some(p) => Some(([s[0]] + p.0, p.1))
  }

  /** A JSON string body: the escaped text and its closing quote. */
  function Quoted(x: string): (r: string)
    ensures |r| > |x|
  {
    Escape(x) + "\""
  }

  /** Reading a quoted body back stops at the first unescaped quote and recovers the text. */
  lemma {:induction false} UnescapeEscape(x: string, rest: string)
    ensures Unescape(Quoted(x) + rest) == Some((x, rest))
  {
    var s := Quoted(x) + rest;
    if x == [] {
      assert s == "\"" + rest;
    } else {
      UnescapeEscape(x[1..], rest);
      var tail := Quoted(x[1..]) + rest;
      assert x == [x[0]] + x[1..];
      if x[0] == '"' || x[0] == '\\' {
        assert Quoted(x) == ['\\', x[0]] + Quoted(x[1..]);
        assert s == ['\\', x[0]] + tail;
        assert s[2..] == tail;
      } else {
        assert Quoted(x) == [x[0]] + Quoted(x[1..]);
        assert s == [x[0]] + tail;
        assert s[1..] == tail;
      }
    }
  }

  /** A JSON integer literal: an optional minus sign and a non-empty run of digits. */
  function ParseIntLiteral(s: string): Option<int> {
    if s != [] && s[0] == '-' then
      if |s| > 1 && AllDigits(s[1..]) then Some(-(DigitsValue(s[1..]) as int)) else None
    else if s != [] && AllDigits(s) then Some(DigitsValue(s))
    else None
  }

  lemma ParseIntLiteralOfNat(n: nat)
    ensures ParseIntLiteral(NatToString(n)) == Some(n)
  {
    var s := NatToString(n);
    assert IsDigit(s[0]);
    NatToStringValue(n);
  }

  lemma ParseIntLiteralOfNegative(n: nat)
    ensures ParseIntLiteral("-" + NatToString(n)) == Some(-(n as int))
  {
    var d := NatToString(n);
    var s := "-" + d;
    assert s[0] == '-' && |s| > 1 && s[1..] == d;
    NatToStringValue(n);
  }

  lemma ParseIntLiteralOfIntToString(i: int)
    ensures ParseIntLiteral(IntToString(i)) == Some(i)
  {
    if i < 0 {
      ParseIntLiteralOfNegative(-i);
    } else {
      ParseIntLiteralOfNat(i);
    }
  }

  /** A text made of `prefix` and `rest` starts with `prefix`, and dropping it leaves `rest`. */
  lemma DropPrefix(prefix: string, rest: string)
    ensures StartsWith(prefix + rest, prefix)
    ensures (prefix + rest)[|prefix|..] == rest
  {
    assert (prefix + rest)[..|prefix|] == prefix;
  }

  const ProjectIdHead: string := "{\"projectId\":\""
  const ProjectTitleHead: string := ",\"projectTitle\":\""
  const StartTimeHead: string := ",\"startTime\":"

  predicate StartsWith(s: string, prefix: string) {
    |prefix| <= |s| && s[..|prefix|] == prefix
  }

  /**
   * The JSON text for the fields the provider writes, in the order `JSON.stringify(activeTimer)`
   * lays them out, with the start time written as an integer where the source writes a
   * quoted ISO date string; only quotes and backslashes are escaped.
   */
  function Encode(t: ActiveTimer): string {
    ProjectIdHead + (Quoted(t.projectId) + EncodeTitleAndTime(t.projectTitle, t.startTime))
  }

  /** The `projectTitle` and `startTime` members and the closing brace. */
  function EncodeTitleAndTime(title: string, startTime: int): string {
    ProjectTitleHead + (Quoted(title) + EncodeStartTime(startTime))
  }

  function EncodeStartTime(startTime: int): string {
    StartTimeHead + (IntToString(startTime) + "}")
  }

  /** The `startTime` member and the closing brace: an integer literal, then `}`. */
  function DecodeStartTime(s: string): Option<int> {
    if !StartsWith(s, StartTimeHead) then None
    else
      var body := s[|StartTimeHead|..];
      if body == [] || body[|body| - 1] != '}' then None
      else ParseIntLiteral(body[..|body| - 1])
  }

  /** The `projectTitle` member and everything after it. */
  function DecodeTitleAndTime(s: string): Option<(string, int)> {
    if !StartsWith(s, ProjectTitleHead) then None
    else
      match Unescape(s[|ProjectTitleHead|..])
      case None => None
      case Some(p) =>
        match DecodeStartTime(p.1)
        case None => None
        case Some(startTime) => Some((p.0, startTime))
  }

  /**
   * `JSON.parse(stored)`: `Some(None)` for the literal `null`, `Some(Some(t))` for a timer
   * object, `None` where the source's parse throws.
   */
  function Decode(s: string): (r: Option<Option<ActiveTimer>>)
    ensures r == Some(None) <==> s == "null"
  {
    if s == "null" then Some(None)
    else if !StartsWith(s, ProjectIdHead) then None
    else
      match Unescape(s[|ProjectIdHead|..])
      case None => None
      case Some(p) =>
        match DecodeTitleAndTime(p.1)
        case None => None
        case Some(q) => Some(Some(ActiveTimer(p.0, q.0, q.1)))
  }

  lemma DecodeStartTimeOf(i: int)
    ensures DecodeStartTime(EncodeStartTime(i)) == Some(i)
  {
    var body := IntToString(i) + "}";
    DropPrefix(StartTimeHead, body);
    assert body[..|body| - 1] == IntToString(i);
    ParseIntLiteralOfIntToString(i);
  }

  /** The title member decodes once its head, its string body and the start time do. */
  lemma DecodeTitleAndTimeStep(s: string, title: string, rest: string, i: int)
    requires StartsWith(s, ProjectTitleHead)
    requires Unescape(s[|ProjectTitleHead|..]) == Some((title, rest))
    requires DecodeStartTime(rest) == Some(i)
    ensures DecodeTitleAndTime(s) == Some((title, i))
  {
  }

  lemma DecodeTitleAndTimeOf(title: string, i: int)
    ensures DecodeTitleAndTime(EncodeTitleAndTime(title, i)) == Some((title, i))
  {
    var s := EncodeTitleAndTime(title, i);
    DropPrefix(ProjectTitleHead, Quoted(title) + EncodeStartTime(i));
    UnescapeEscape(title, EncodeStartTime(i));
    DecodeStartTimeOf(i);
    DecodeTitleAndTimeStep(s, title, EncodeStartTime(i), i);
  }

  /** A whole timer decodes once its head, its project id body and the rest do. */
  lemma DecodeStep(s: string, projectId: string, rest: string, title: string, i: int)
    requires s != "null" && StartsWith(s, ProjectIdHead)
    requires Unescape(s[|ProjectIdHead|..]) == Some((projectId, rest))
    requires DecodeTitleAndTime(rest) == Some((title, i))
    ensures Decode(s) == Some(Some(ActiveTimer(projectId, title, i)))
  {
  }

  /** What the provider writes, it reads back unchanged. */
  lemma DecodeEncode(t: ActiveTimer)
    ensures Decode(Encode(t)) == Some(Some(t))
  {
    var s := Encode(t);
    var tail := EncodeTitleAndTime(t.projectTitle, t.startTime);
    DropPrefix(ProjectIdHead, Quoted(t.projectId) + tail);
    assert s != "null" by { assert s[0] == '{'; }
    UnescapeEscape(t.projectId, tail);
    DecodeTitleAndTimeOf(t.projectTitle, t.startTime);
    DecodeStep(s, t.projectId, tail, t.projectTitle, t.startTime);
  }

  /** A prefix that stops inside the first part of a concatenation is a prefix of that part. */
  lemma PrefixWithin(a: string, b: string, k: nat)
    requires k <= |a|
    ensures (a + b)[..k] == a[..k]
  {
  }

  /** A prefix that reaches past the first part keeps all of it and a prefix of the rest. */
  lemma PrefixBeyond(a: string, b: string, k: nat)
    requires |a| <= k <= |a| + |b|
    ensures (a + b)[..k] == a + b[..k - |a|]
  {
  }

  /** A string body cut before its closing quote never finishes reading. */
  lemma {:induction false} UnescapeCutQuoted(x: string, k: nat)
    requires k < |Quoted(x)|
    ensures Unescape(Quoted(x)[..k]) == None
  {
    var s := Quoted(x)[..k];
    if x != [] && k > 0 {
      var c := x[0];
      assert x == [c] + x[1..];
      if c == '"' || c == '\\' {
        assert Quoted(x) == ['\\', c] + Quoted(x[1..]);
        if k >= 2 {
          UnescapeCutQuoted(x[1..], k - 2);
          assert s[2..] == Quoted(x[1..])[..k - 2];
        }
      } else {
        assert Quoted(x) == [c] + Quoted(x[1..]);
        UnescapeCutQuoted(x[1..], k - 1);
        assert s[1..] == Quoted(x[1..])[..k - 1];
      }
    }
  }

  /**
   * Reading a string body from a prefix of `Quoted(x) + rest`: nothing when the cut falls
   * inside the body, and otherwise `x` with the cut remainder.
   */
  lemma UnescapeCut(x: string, rest: string, k: nat)
    requires k <= |Quoted(x)| + |rest|
    ensures k < |Quoted(x)| ==> Unescape((Quoted(x) + rest)[..k]) == None
    ensures k >= |Quoted(x)| ==>
      Unescape((Quoted(x) + rest)[..k]) == Some((x, rest[..k - |Quoted(x)|]))
  {
    if k < |Quoted(x)| {
      PrefixWithin(Quoted(x), rest, k);
      UnescapeCutQuoted(x, k);
    } else {
      PrefixBeyond(Quoted(x), rest, k);
      UnescapeEscape(x, rest[..k - |Quoted(x)|]);
    }
  }

  lemma NoBraceInInt(i: int)
    ensures '}' !in IntToString(i)
  {
    var d := NatToString(if i < 0 then -i else i);
    assert forall j :: 0 <= j < |d| ==> IsDigit(d[j]);
  }

  /** A start-time member cut short lacks its closing brace. */
  lemma DecodeStartTimeCut(i: int, k: nat)
    requires k < |EncodeStartTime(i)|
    ensures DecodeStartTime(EncodeStartTime(i)[..k]) == None
  {
    var body := IntToString(i) + "}";
    if k >= |StartTimeHead| {
      PrefixBeyond(StartTimeHead, body, k);
      var cut := body[..k - |StartTimeHead|];
      DropPrefix(StartTimeHead, cut);
      NoBraceInInt(i);
      if cut != [] {
        assert cut[|cut| - 1] == IntToString(i)[|cut| - 1];
      }
    }
  }

  /** The title member fails once its string body or the start time after it fails. */
  lemma DecodeTitleAndTimeFails(s: string)
    requires StartsWith(s, ProjectTitleHead)
    requires var p := Unescape(s[|ProjectTitleHead|..]); p.None? || DecodeStartTime(p.value.1).None?
    ensures DecodeTitleAndTime(s) == None
  {
  }

  /** The title member and start time cut short do not decode. */
  lemma DecodeTitleAndTimeCut(title: string, i: int, k: nat)
    requires k < |EncodeTitleAndTime(title, i)|
    ensures DecodeTitleAndTime(EncodeTitleAndTime(title, i)[..k]) == None
  {
    var s := EncodeTitleAndTime(title, i)[..k];
    var body := Quoted(title) + EncodeStartTime(i);
    if k >= |ProjectTitleHead| {
      var j := k - |ProjectTitleHead|;
      var u := body[..j];
      PrefixBeyond(ProjectTitleHead, body, k);
      assert s == ProjectTitleHead + u;
      DropPrefix(ProjectTitleHead, u);
      UnescapeCut(title, EncodeStartTime(i), j);
      if j >= |Quoted(title)| {
        DecodeStartTimeCut(i, j - |Quoted(title)|);
      }
      DecodeTitleAndTimeFails(s);
    }
  }

  /** A timer object fails once its project id body or the members after it fail. */
  lemma DecodeFails(s: string)
    requires s != "null" && StartsWith(s, ProjectIdHead)
    requires var p := Unescape(s[|ProjectIdHead|..]); p.None? || DecodeTitleAndTime(p.value.1).None?
    ensures Decode(s) == None
  {
  }

  /** Every proper prefix of a serialised timer fails to parse. */
  lemma TruncatedTextIsCorrupt(t: ActiveTimer, k: nat)
    requires k < |Encode(t)|
    ensures Decode(Encode(t)[..k]) == None
  {
    var s := Encode(t)[..k];
    var tail := EncodeTitleAndTime(t.projectTitle, t.startTime);
    var body := Quoted(t.projectId) + tail;
    assert s != "null" by {
      if k > 0 { assert s[0] == '{'; }
    }
    if k >= |ProjectIdHead| {
      var j := k - |ProjectIdHead|;
      var u := body[..j];
      PrefixBeyond(ProjectIdHead, body, k);
      assert s == ProjectIdHead + u;
      DropPrefix(ProjectIdHead, u);
      UnescapeCut(t.projectId, tail, j);
      if j >= |Quoted(t.projectId)| {
        DecodeTitleAndTimeCut(t.projectTitle, t.startTime, j - |Quoted(t.projectId)|);
      }
      DecodeFails(s);
    }
  }
}

=== FILE: wrappers.dfy ===
/** Optional values: the model's stand-in for JavaScript's `undefined` and `null`. */
module Wrappers {

  datatype Option<+T> = None | Some(value: T) {

    /** The contained value, or `default` when absent. */
    function GetOr(default: T): T {
      match this
      case Some(v) => v
      case None => default
    }
  }
}
